=== FILE: README.md ===
# Session and negotiation model of the WhatsApp property-sales bot

This Dafny project models the state-keeping core of a WhatsApp bot that sells one
property: a three-villa complex with an asking price of OMR 550,000. The model has
four parts.

- **Negotiation** (`negotiation.dfy`, src/NegotiationState.js) models the asking-price
  state machine. An offer at or above the current price is accepted. An offer below
  the 500,000 floor is countered, and the third and every later one is referred to
  the owner, since no branch of `handleOffer` lowers the attempt count and nothing calls
  `reset()`.
  An offer in between brings the price down one 10,000 step, as long as that does not
  go below the floor.
- **Conversation** (`conversation.dfy`, src/ConversationContext.js) models the
  per-sender context store, a `map<string, Context>`. A context is created on first
  access. The history is first-in, first-out and capped at ten entries. The store also
  has a shallow-merge update, a price-negotiation patch with "keep the old value when
  the new one is falsy" semantics, a prioritised next-step suggestion, and a 24-hour
  sweep.
- **Contact** (`contact.dfy`, src/ContactHandler.js) models the contact-details
  classifier and the name and phone extractor. Each regular expression is written as
  a predicate (for `test`) or a scanner (for `match`). The phone scanner returns the
  engine's match. The name scanner returns the end of the engine's capture group,
  and a start that may include leading whitespace the engine's `\s*` consumes.
  After `trim` the name is the same.
- **PropertyBot** (`bot.dfy`, src/PropertyBot.js) models `handleMessage` and the
  negotiation part of `useChatGPT`. This covers sticky language detection, recording
  the message, layout and photo routing, contact capture, offer extraction, syncing
  completion into the context, and the reply with its suggestion.

`text.dfy` holds the JavaScript string behaviour the bot relies on: `\d`, `\w`, `\s`,
`trim`, `includes`, case folding under the `i` flag, `match(/\d+/g)` and `parseInt`.
`wrappers.dfy` models `null`-or-value fields and JavaScript truthiness.

Each operation is a pure transition `(state, input) -> (state', result)`. Three
things become explicit parameters:

- `Date.now()` becomes `now`.
- The completion service's reply becomes a `Generation` input: the text, or a failure.
- The undefined media senders become the outcomes `SendLayouts` and `SendPhotos`.

The model follows the code as written. The following consequences are proved about it:

- Acceptance is `offer >= currentPrice`.
- One `NegotiationState` is shared by every sender (src/PropertyBot.js:8). Once one
  sender's offer is accepted, the next conversational message from any sender marks
  that sender's context completed at the first sender's price. After that, no offer
  reaches the negotiation any more (`AcceptanceLeaksToOtherSenders`,
  `CompletedNegotiationIsFrozen`).
- `lastInteraction` is written only when a context is created
  (src/ConversationContext.js:20). If the 24-hour sweep were run, it would drop a
  context a day after its creation, however active the sender is
  (`ActiveSenderStillEvicted`). Neither src/PropertyBot.js nor app.js calls
  `cleanupOldContexts` or `reset`, so no context is ever dropped and the
  negotiation never restarts.
- With the constructor's constants, the price stays on the 10,000 grid, so its last
  step reaches the floor exactly. As a result the `final_offer` branch is never taken
  (`NoFinalOfferOnGrid`).
- A low offer made while the price is on the floor is countered below the floor
  (`LowOfferCounterUndercutsFloor`).
- A context's `lastOffer` is only written together with a completion. A completed
  context gets no suggestion. So the "discuss the price or arrange a viewing" prompt
  never appears (`ContinuePromptUnreachable`, together with
  `HandleMessagePreservesInv`).
- Contact capture writes both extracted fields, so a message that yields only a phone
  number clears a stored name (`ContactCapturedOnlyWhenExtracted`).
- `handleOffer` compares an offer only with `currentPrice` and `minPrice`. It has no
  round limit, and nothing rejects an offer once the negotiation is complete
  (src/NegotiationState.js:15-45). Callers stop offering once the context is completed
  (src/PropertyBot.js:154). The shared completion reaches that test only through the
  sync at src/PropertyBot.js:141-147, which `context` sees because it is the same
  object as the store entry.

## Model

| member | source | states |
|---|---|---|
| Negotiation.Initial | src/NegotiationState.js:2-10 | A new negotiation asks 550000, has floor 500000 and step 10000, no attempts, no offer, is not complete and has no agreed price; it satisfies the invariant |
| Negotiation.HandleOffer | src/NegotiationState.js:12-51 | Every offer is recorded as `lastOffer`. The result is accept, with `complete` and `agreedPrice = offer`, exactly when `offer >= currentPrice`. A low offer adds one attempt, leaves the price unchanged, and is referred to the owner from the third attempt on, otherwise countered at price minus step. An in-between offer lowers the price by one step when the floor allows and counters at the new price; otherwise it returns `final_offer` at the floor and changes nothing but `lastOffer` |
| Negotiation.Reset | src/NegotiationState.js:53-59 | Reset restores 550000, zero attempts, null offer and agreed price, and not complete. It keeps the floor and the step, and the result is valid whenever that floor and step are |
| Negotiation.HandleOfferPreservesValid | src/NegotiationState.js:12-51 | One offer keeps `0 < minPrice <= currentPrice <= 550000` and "complete implies an agreed price at or above the floor". The price never rises, completion is never undone, and attempts never drop |
| Negotiation.RunPreservesValid | src/NegotiationState.js:12-51 | Across any sequence of offers the invariant holds, the price is non-increasing, completion is sticky, attempts are non-decreasing, and floor and step are unchanged |
| Negotiation.CompletionNeedsAccept | src/NegotiationState.js:15-17 | If a run of offers completes an open negotiation, then some offer in it was at or above the price current when it was made |
| Negotiation.NoFinalOfferOnGrid | src/NegotiationState.js:3-5 | Starting from the constructor's floor and step, the price stays on the 10000 grid between floor and 550000, so no offer ever yields `final_offer` |
| Negotiation.FiveStepsReachFloor | src/NegotiationState.js:39-45 | Five in-between offers bring a fresh negotiation from 550000 down to the 500000 floor |
| Negotiation.ThirdLowOfferIsReferred | src/NegotiationState.js:25-37 | From zero attempts, two offers below the floor are countered and the third is referred to the owner at the unchanged price, with three attempts recorded |
| Negotiation.LowOfferCounterUndercutsFloor | src/NegotiationState.js:33-36 | With the price on the floor and fewer than three attempts, a low offer is countered at a price below the floor |
| Conversation.GetUserContext | src/ConversationContext.js:6-24 | The sender has a context afterwards. An existing one is returned and the map is unchanged. An absent one is created with null language, name, phone and prices, empty history, not completed, and `lastInteraction = now`. No other entry changes |
| Conversation.GetUserContextIdempotent | src/ConversationContext.js:6-24 | A second lookup of the same sender, at any later instant, returns the same context and leaves the map as the first lookup left it |
| Conversation.Append | src/ConversationContext.js:28-37 | Push-then-shift equals keeping the last ten entries of history plus the new entry. The new entry is last and the previous last entry is now second to last |
| Conversation.AddToHistory | src/ConversationContext.js:26-38 | The sender's history becomes the last ten of the old history plus `(now, message, isUser)`, with that entry last. Every other field and every other sender is unchanged |
| Conversation.AppendAllKeepsLastTen | src/ConversationContext.js:34-37 | Any number of successive appends to a history of at most ten leaves exactly the last ten entries of everything, in order |
| Conversation.TenAppendsLeaveOnlyThem | src/ConversationContext.js:34-37 | After ten or more appends the history is exactly the ten newest entries, in order |
| Conversation.UpdateContext | src/ConversationContext.js:40-43 | Each top-level field named in the patch takes the patch's value. Every other field, and every other sender's context, is unchanged |
| Conversation.EmptyPatchOnlyCreates | src/ConversationContext.js:40-43 | An update that names no field has the same effect as a lookup |
| Conversation.UpdatePriceNegotiation | src/ConversationContext.js:45-53 | `completed` holds exactly when the status is `"completed"`. A truthy price becomes both `agreedPrice` and `lastOffer`; a falsy one keeps the old values. Preferences, history, creation time and other senders are unchanged |
| Conversation.NextStep | src/ConversationContext.js:59-77 | The suggestion is the contact prompt iff neither name nor phone is truthy. Otherwise it is the price prompt iff `lastOffer` is falsy. Otherwise it is the continue/viewing prompt iff the negotiation is not completed. Otherwise there is none |
| Conversation.SuggestNextStep | src/ConversationContext.js:55-78 | The result is `null` exactly when no step applies. Otherwise it is the non-empty wording of that step in the given language. The only effect on the store is creating the context |
| Conversation.CleanupOldContexts | src/ConversationContext.js:80-88 | The sweep removes exactly the contexts whose `lastInteraction` is below `now - 86400000` and keeps every other one unchanged |
| Conversation.CleanupIdempotent | src/ConversationContext.js:80-88 | A second sweep at the same instant removes nothing more |
| Conversation.CleanupMonotone | src/ConversationContext.js:80-88 | A later sweep keeps only contexts that an earlier sweep would also keep |
| Contact.FindPhone | src/ContactHandler.js:9 | The scan returns the leftmost maximal run of nine or more digits, or nothing exactly when no nine digits stand together |
| Contact.LastTerminator | src/ContactHandler.js:8 | The scan finds the rightmost terminator start in the range, or reports that the range has none |
| Contact.FindName | src/ContactHandler.js:8 | The result is null exactly when no `name` from the start position on admits the rest of the pattern. Otherwise it is the capture at the leftmost such `name`. A found capture follows the label, consists of word characters and whitespace, and ends where a terminator starts |
| Contact.IsContactInfo | src/ContactHandler.js:2-5 | A comma together with an extracted phone number is enough. The result is never true without a label word, a self-introduction or a comma, nor without a colon or a digit |
| Contact.ExtractContactInfo | src/ContactHandler.js:7-15 | The phone is non-null iff nine digits stand together, and then it is the leftmost maximal digit run. The name is non-null iff the name pattern matches at some `name`. A non-null name is trimmed, consists of word characters and whitespace only, and occurs only when a `name` label is followed later by a terminator |
| Contact.CommaAndPhoneIsContact | src/ContactHandler.js:2-5 | A message containing a comma from which a phone is extracted is classified as contact details |
| Contact.LabelThenColonIsContact | src/ContactHandler.js:3 | A label word (any case) with a colon later on the same line makes the message contact details |
| Text.Trim | src/ContactHandler.js:12 | `trim` yields the slice left after removing whitespace from both ends; a non-empty result starts and ends with a non-space |
| Text.DigitRuns | src/PropertyBot.js:150 | The runs `/\d+/g` matches are non-empty and made of digits only; `JoinedRunsAreDigits` shows that together they hold every digit |
| Text.JoinedRunsAreDigits | src/PropertyBot.js:150-151 | Joining the runs matched by `/\d+/g` gives exactly the message's digits, in order |
| Text.DecimalValueZero | src/PropertyBot.js:151 | A digit string parses to zero exactly when every digit is `0` |
| Text.DigitsContent | src/PropertyBot.js:150-151 | The joined digits are empty iff the message has no digit, and all zeros iff every digit of the message is `0` |
| PropertyBot.Start | src/PropertyBot.js:7-9 | The bot starts with no contexts and one valid negotiation for all senders, at the asking price and floor, with no attempts and not complete |
| PropertyBot.DetectLanguage | src/PropertyBot.js:56-59 | The result is Arabic iff some character lies in U+0600 to U+06FF, and English iff none does |
| PropertyBot.Classify | src/PropertyBot.js:78-90 | Layout keywords win. Photo keywords apply only when no layout keyword matches. The conversation goes on only when neither does. Matching is on the lowercased text |
| PropertyBot.Admit | src/PropertyBot.js:66-75 | The language is set only when unset, and then from the message's script. The message is appended to the history with `isUser = true`. Contact fields, negotiation and creation time are unchanged |
| PropertyBot.CaptureContact | src/PropertyBot.js:93-105 | For contact-looking text with a truthy extracted name or phone, both extracted fields are stored, possibly as null. Otherwise the context is unchanged. The language is kept either way |
| PropertyBot.PossibleOffer | src/PropertyBot.js:150-151 | The offer is null iff the message has no digit. Otherwise it is the decimal value of all its digits joined. It is truthy iff some digit is not `0` |
| PropertyBot.SyncAndNegotiate | src/PropertyBot.js:137-163 | A completed shared negotiation is copied into an open context. The shared state changes only through `handleOffer`, only for a truthy offer while both are open. An accepting offer completes the context at that price |
| PropertyBot.UseChatGPT | src/PropertyBot.js:135-204 | After the sync and negotiation, the reply is the trimmed generated text. A failed generation yields none |
| PropertyBot.Finish | src/PropertyBot.js:110-123 | The reply is appended with `isUser = false`. The text is reply + two newlines + suggestion exactly when the context is open and a step applies; otherwise the reply alone |
| PropertyBot.HandleMessage | src/PropertyBot.js:61-133 | Only the sender's context changes. The outcome is layouts iff a layout keyword matches, photos iff only a photo keyword does, and a failure iff the turn is conversational and generation fails. Canned outcomes change nothing beyond admission |
| PropertyBot.Conversational | src/PropertyBot.js:93-123 | A failed generation keeps the contact capture and the negotiation already done. A successful one always yields a reply |
| PropertyBot.InboundRecordedFirst | src/PropertyBot.js:75 | The inbound message is recorded whatever the route. On a reply, when no other turn interleaves, it is directly followed by the bot's trimmed text; otherwise it is the last entry |
| PropertyBot.LanguageAndCreationKept | src/PropertyBot.js:69-71 | A stored language is never changed, an unset one is detected from this message, and `lastInteraction` is never refreshed |
| PropertyBot.OfferReachesNegotiation | src/PropertyBot.js:150-155 | `handleOffer` runs exactly for a conversational message with a truthy offer while neither the context nor the shared negotiation is completed |
| PropertyBot.ContactCapturedOnlyWhenExtracted | src/PropertyBot.js:93-104 | Contact fields change only for conversational, contact-looking text with something extracted, and then both take the extracted values |
| PropertyBot.CompletionSynced | src/PropertyBot.js:141-162 | A completed shared negotiation completes the context, at its agreed price if the context was open. An accepting offer completes it at the offer |
| PropertyBot.ReplyCarriesSuggestion | src/PropertyBot.js:113-121 | Given generated text, the reply is that text trimmed, followed by two newlines and the suggestion exactly while the context is open and a step applies |
| PropertyBot.HandleMessagePreservesInv | src/PropertyBot.js:61-163 | Every message keeps these facts: the negotiation invariant, histories of at most ten, "completed implies a truthy agreed price", "a truthy context `lastOffer` implies completed", and "a completed context implies a completed shared negotiation" |
| PropertyBot.ContinuePromptUnreachable | src/ConversationContext.js:65-71 | In every state reachable through `handleMessage`, no context is offered the continue/viewing prompt |
| PropertyBot.AcceptanceLeaksToOtherSenders | src/PropertyBot.js:141-147 | After one sender's accepted offer, the next conversational message from any sender leaves that sender completed at the accepted price, and the shared negotiation unchanged |
| PropertyBot.CompletedNegotiationIsFrozen | src/PropertyBot.js:154 | Once the shared negotiation is complete, no message changes it |
| PropertyBot.ActiveSenderStillEvicted | src/ConversationContext.js:20 | If the sweep is run, a sender whose context is older than a day is swept even right after writing again |
| PropertyBot.LanguageIsSticky | src/PropertyBot.js:69-71 | A stored Arabic preference survives a message without Arabic script, which on its own would be detected as English |

## Left out

- The completion service call and its prompt text (src/PropertyBot.js:166-204), the knowledge-base strings and `logDebug`. These are foreign I/O and free text. The service's answer is the `Generation` input, and the trimming of its text is modelled.
- `sendLayouts` and `sendPhotos` are not part of this model. They are called at src/PropertyBot.js:83 and :89, but PropertyBot.js does not define them. As written, calling them throws a TypeError. The catch block (src/PropertyBot.js:124-131) then reads the block-scoped `language` and throws again, so the turn rejects after the inbound message is recorded. The model ends these branches in the outcomes `SendLayouts` and `SendPhotos`, which is the intended behaviour rather than what the code does as written.
- The fallback replies in the two catch blocks. Both read `language`, which is declared with `const` inside the `try` block, so they would fail themselves. Any failure of generation is the outcome `Failed`. It keeps the state changes made before it, and no localized fallback text is promised.
- app.js (HTTP server, static files, message dispatch, environment checks). This is transport and process wiring.
- `Date.now()`: one instant `now` is used for every call within a turn. In the source the reply's history timestamp is taken after the awaited completion call, often seconds after the inbound one. The model gives both entries the same `now`.
- PropertyBot.HandleMessage: each turn is one atomic step. In the source, a turn awaits the completion service (src/PropertyBot.js:197). That is after the sync and offer handling (:141-163) and before the reply is recorded and the suggestion computed (:111-121). The server (app.js:62-67) can run another turn, from the same or another sender, during that wait. The model does not cover such interleavings. PropertyBot.InboundRecordedFirst's "directly followed by the reply" and the suggestion's view of the context hold only when turns do not interleave.
- `parseInt` precision: offers are unbounded integers, so the loss of precision on very long digit strings is not modelled.
- `toLowerCase` only folds ASCII letters here. Arabic has no case, and no other character lowercases into one of the ASCII keywords.
- `updateContext` patches are limited to the four fields a context has. `Object.assign` could also add new keys, but nothing in the core relies on that.
- Contact.ExtractContactInfo: the name's contract states when a name is present, and its shape. Contact.FindName states that the leftmost matching `name` is used. Neither contract states which capture the engine picks at that `name`. The body of Contact.NameAt models that choice: `\s+is` tried before skipping it, and the rightmost terminator within the `[\w\s]` run.

=== FILE: bot.dfy ===
/**
 * The message handling of src/PropertyBot.js: language detection, keyword
 * routing, contact capture, offer extraction and negotiation, completion
 * sync, and the final reply with its next-step suggestion. The generated
 * reply, the instant `now` and the canned media sends are inputs or
 * outcomes; one negotiation state is shared by every sender, as in the
 * source.
 */
module PropertyBot {
  import opened Wrappers
  import opened Text
  import opened Negotiation
  import opened Conversation
  import opened Contact

  /** The bot's two stores: the shared negotiation and the per-user contexts. */
  datatype BotState = BotState(negotiation: NegotiationState, contexts: Store)

  /** What the completion service gave back: reply text, or a failure of any kind. */
  datatype Generation = Generated(text: string) | GenerationFailed

  /** What `handleMessage` ends in. `Failed` is a rejected call, not a fallback text. */
  datatype Outcome = SendLayouts | SendPhotos | Reply(text: string) | Failed

  /** Keyword route taken on the lowercased message. */
  datatype Route = Layouts | Photos | Converse

  const LayoutKeywords: seq<string> :=
    ["layout", "floor", "\U{0645}\U{062E}\U{0637}\U{0637}", "\U{0637}\U{0627}\U{0628}\U{0642}"]
  const PhotoKeywords: seq<string> :=
    ["photo", "picture", "\U{0635}\U{0648}\U{0631}", "\U{0635}\U{0648}\U{0631}\U{0629}"]

  /** A fresh bot: constructor values and no contexts. */
  function Start(): (b: BotState)
    ensures Valid(b.negotiation) && b.contexts == map[]
    // one negotiation for every sender, opening at the asking price
    ensures b.negotiation.currentPrice == AskingPrice && b.negotiation.minPrice == FloorPrice
    ensures b.negotiation.attempts == 0 && !b.negotiation.complete
  {
    BotState(Negotiation.Initial(), map[])
  }

  /** `/[؀-ۿ]/`: the Arabic block. */
  predicate IsArabicChar(c: char) {
    '\U{0600}' <= c <= '\U{06FF}'
  }

  /** `detectLanguage(message)`. */
  function DetectLanguage(m: string): (l: Language)
    ensures l == Arabic <==> exists i | 0 <= i < |m| :: IsArabicChar(m[i])
    ensures l == English <==> forall i | 0 <= i < |m| :: !IsArabicChar(m[i])
  {
    if m == [] then English
    else if IsArabicChar(m[0]) then Arabic
    else
      assert forall i | 1 <= i < |m| :: m[i] == m[1..][i - 1];
      DetectLanguage(m[1..])
  }

  /** Lines 78-90: layouts first, then photos, otherwise on to the conversation. */
  function Classify(m: string): (r: Route)
    ensures r == Layouts <==> Mentions(m, LayoutKeywords)
    ensures r == Photos <==> !Mentions(m, LayoutKeywords) && Mentions(m, PhotoKeywords)
    ensures r == Converse <==> !Mentions(m, LayoutKeywords) && !Mentions(m, PhotoKeywords)
  {
    if Mentions(m, LayoutKeywords) then Layouts
    else if Mentions(m, PhotoKeywords) then Photos
    else Converse
  }

  /** Lines 66-75: fetch or create the context, set the language if unset, record the message. */
  function Admit(b: BotState, m: string, sender: string, now: int): (b': BotState)
    ensures b'.negotiation == b.negotiation
    ensures OnlyTouches(b.contexts, b'.contexts, sender)
    ensures var c := Lookup(b.contexts, sender, now);
            var c' := b'.contexts[sender];
            && c'.preferences.language ==
                 (if c.preferences.language.Some? then c.preferences.language
                  else Some(DetectLanguage(m)))
            && c'.preferences.contactName == c.preferences.contactName
            && c'.preferences.contactPhone == c.preferences.contactPhone
            && c'.priceNegotiation == c.priceNegotiation
            && c'.lastInteraction == c.lastInteraction
            && c'.history != [] && c'.history[|c'.history| - 1] == HistoryEntry(now, m, true)
            && (|c.history| <= HistoryCap ==>
                  c'.history == LastN(c.history + [HistoryEntry(now, m, true)], HistoryCap))
  {
    var (store1, c) := GetUserContext(b.contexts, sender, now);
    var c1 := if c.preferences.language.None?
              then c.(preferences := c.preferences.(language := Some(DetectLanguage(m))))
              else c;
    b.(contexts := AddToHistory(store1[sender := c1], sender, m, true, now))
  }

  /** Lines 93-105: store what was extracted, but only when something was. */
  function CaptureContact(b: BotState, m: string, sender: string, now: int): (b': BotState)
    requires sender in b.contexts
    ensures b'.negotiation == b.negotiation
    ensures OnlyTouches(b.contexts, b'.contexts, sender)
    ensures var c := b.contexts[sender];
            var c' := b'.contexts[sender];
            var info := ExtractContactInfo(m);
            && c'.history == c.history
            && c'.priceNegotiation == c.priceNegotiation
            && c'.lastInteraction == c.lastInteraction
            && c'.preferences.language == c.preferences.language
            && (IsContactInfo(m) && (TruthyString(info.name) || TruthyString(info.phone)) ==>
                  c'.preferences.contactName == info.name && c'.preferences.contactPhone == info.phone)
            && (!(IsContactInfo(m) && (TruthyString(info.name) || TruthyString(info.phone))) ==>
                  c' == c)
  {
    StoreContact(b, sender, IsContactInfo(m), ExtractContactInfo(m), now)
  }

  /** Lines 97-104, once the message has been tested and its details extracted. */
  function StoreContact(b: BotState, sender: string, isContact: bool, info: ContactInfo, now: int): (b': BotState)
    requires sender in b.contexts
    ensures b'.negotiation == b.negotiation
    ensures OnlyTouches(b.contexts, b'.contexts, sender)
    ensures var c := b.contexts[sender];
            var c' := b'.contexts[sender];
            && c'.history == c.history
            && c'.priceNegotiation == c.priceNegotiation
            && c'.lastInteraction == c.lastInteraction
            && c'.preferences.language == c.preferences.language
            && (isContact && (TruthyString(info.name) || TruthyString(info.phone)) ==>
                  c'.preferences.contactName == info.name && c'.preferences.contactPhone == info.phone)
            && (!(isContact && (TruthyString(info.name) || TruthyString(info.phone))) ==>
                  c' == c)
  {
    if isContact && (TruthyString(info.name) || TruthyString(info.phone)) then
      var c := Lookup(b.contexts, sender, now);
      var prefs := c.preferences.(contactName := info.name, contactPhone := info.phone);
      b.(contexts := UpdateContext(b.contexts, sender, ContextPatch(Some(prefs), None, None, None), now))
    else b
  }

  /** Lines 150-151: every digit run of the message joined, then parsed; `null` without digits. */
  function PossibleOffer(m: string): (r: Option<int>)
    ensures r.None? <==> forall i | 0 <= i < |m| :: !IsDigit(m[i])
    ensures r.Some? ==> r.value >= 0 && r.value == DecimalValue(Digits(m))
    ensures TruthyInt(r) <==> exists i | 0 <= i < |m| :: IsDigit(m[i]) && m[i] != '0'
  {
    var numbers := DigitRuns(m);
    JoinedRunsAreDigits(m);
    DigitsContent(m);
    DecimalValueZero(Digits(m));
    if numbers == [] then
      assert Digits(m) == [];
      None
    else
      assert Digits(m) != [] by {
        assert numbers[0] != [];
        assert Concat(numbers) == numbers[0] + Concat(numbers[1..]);
      }
      Some(DecimalValue(Concat(numbers)))
  }

  /** Whether a message's offer goes to `handleOffer`, given the context after the sync. */
  predicate OfferReaches(m: string, c: Context) {
    TruthyInt(PossibleOffer(m)) && !c.priceNegotiation.completed
  }

  /**
   * Lines 137-163: copy a completion of the shared negotiation into this
   * sender's context, then hand a non-zero offer to `handleOffer` unless the
   * context is completed, and record an acceptance.
   */
  function SyncAndNegotiate(b: BotState, m: string, sender: string, now: int): (b': BotState)
    requires sender in b.contexts
    ensures OnlyTouches(b.contexts, b'.contexts, sender)
    ensures var c := b.contexts[sender];
            var c' := b'.contexts[sender];
            var offer := PossibleOffer(m);
            var reaches := TruthyInt(offer) && !c.priceNegotiation.completed && !b.negotiation.complete;
            && c'.preferences == c.preferences
            && c'.history == c.history
            && c'.lastInteraction == c.lastInteraction
            // the shared state moves only when the offer reaches it
            && b'.negotiation == (if reaches then HandleOffer(b.negotiation, offer.value).0 else b.negotiation)
            // an earlier completion of the shared state is copied in
            && (b.negotiation.complete && !c.priceNegotiation.completed ==>
                  c'.priceNegotiation.completed
                  && (TruthyInt(b.negotiation.agreedPrice) ==>
                        c'.priceNegotiation.agreedPrice == b.negotiation.agreedPrice))
            // an accepting offer completes the context at that price
            && (reaches && offer.value >= b.negotiation.currentPrice ==>
                  c'.priceNegotiation.completed && c'.priceNegotiation.agreedPrice == offer)
            // a completed context's negotiation record is untouched
            && (c.priceNegotiation.completed ==> c'.priceNegotiation == c.priceNegotiation)
            // otherwise the context's negotiation record is untouched
            && (!b.negotiation.complete && !(reaches && offer.value >= b.negotiation.currentPrice) ==>
                  c'.priceNegotiation == c.priceNegotiation)
  {
    var (store0, c) := GetUserContext(b.contexts, sender, now);
    var store1 := if b.negotiation.complete && !c.priceNegotiation.completed
                  then UpdatePriceNegotiation(store0, sender, "completed", b.negotiation.agreedPrice, now)
                  else store0;
    var offer := PossibleOffer(m);
    if OfferReaches(m, store1[sender]) then
      var (neg', d) := HandleOffer(b.negotiation, offer.value);
      var store2 := if d.Complete()
                    then UpdatePriceNegotiation(store1, sender, "completed", Some(d.price), now)
                    else store1;
      BotState(neg', store2)
    else BotState(b.negotiation, store1)
  }

  /** `useChatGPT(message, sender)`: the sync and negotiation, then the trimmed reply if there is one. */
  function UseChatGPT(b: BotState, m: string, sender: string, gen: Generation, now: int)
    : (r: (BotState, Option<string>))
    requires sender in b.contexts
    ensures r.0 == SyncAndNegotiate(b, m, sender, now)
    ensures r.1.None? <==> gen.GenerationFailed?
    ensures gen.Generated? ==> r.1 == Some(Trim(gen.text))
  {
    var b1 := SyncAndNegotiate(b, m, sender, now);
    match gen
    case Generated(text) => (b1, Some(Trim(text)))
    case GenerationFailed => (b1, None)
  }

  /** Lines 110-123: record the reply, then append a suggestion while the negotiation is open. */
  function Finish(b: BotState, sender: string, response: string, language: Option<Language>, now: int)
    : (r: (BotState, string))
    requires sender in b.contexts
    ensures r.0.negotiation == b.negotiation
    ensures OnlyTouches(b.contexts, r.0.contexts, sender)
    ensures var c := b.contexts[sender];
            var c' := r.0.contexts[sender];
            && c'.preferences == c.preferences
            && c'.priceNegotiation == c.priceNegotiation
            && c'.lastInteraction == c.lastInteraction
            && c'.history != [] && c'.history[|c'.history| - 1] == HistoryEntry(now, response, false)
            && (c.history != [] ==>
                  |c'.history| >= 2 && c'.history[|c'.history| - 2] == c.history[|c.history| - 1])
    ensures var c := b.contexts[sender];
            var open := !c.priceNegotiation.completed && NextStep(c).Some?;
            && (open ==> r.1 == response + "\n\n" + SuggestionText(NextStep(c).value, language))
            && (!open ==> r.1 == response)
  {
    var store1 := AddToHistory(b.contexts, sender, response, false, now);
    (b.(contexts := store1), WithSuggestion(store1, sender, response, language, now))
  }

  /** Lines 115-123: the suggestion, if any, follows the response after a blank line. */
  function WithSuggestion(store: Store, sender: string, response: string, language: Option<Language>, now: int)
    : (text: string)
    requires sender in store
    ensures var c := store[sender];
            var open := !c.priceNegotiation.completed && NextStep(c).Some?;
            && (open ==> text == response + "\n\n" + SuggestionText(NextStep(c).value, language))
            && (!open ==> text == response)
  {
    var c := store[sender];
    var suggestion := if !c.priceNegotiation.completed
                      then SuggestNextStep(store, sender, language, now).1
                      else None;
    if suggestion.Some? then response + "\n\n" + suggestion.value else response
  }

  /** `handleMessage(message, sender)`. */
  function HandleMessage(b: BotState, m: string, sender: string, gen: Generation, now: int)
    : (r: (BotState, Outcome))
    // only the sender's context can change, and it exists afterwards
    ensures OnlyTouches(b.contexts, r.0.contexts, sender)
    // routing: layouts before photos, both before anything else
    ensures r.1 == SendLayouts <==> Classify(m) == Layouts
    ensures r.1 == SendPhotos <==> Classify(m) == Photos
    ensures r.1 == Failed <==> Classify(m) == Converse && gen.GenerationFailed?
    ensures Classify(m) != Converse ==> r.0 == Admit(b, m, sender, now)
  {
    var b1 := Admit(b, m, sender, now);
    match Classify(m)
    case Layouts => (b1, SendLayouts)
    case Photos => (b1, SendPhotos)
    case Converse => Conversational(b1, m, sender, gen, now)
  }

  /** Lines 93-123, once no keyword matched: contact capture, generation, reply. */
  function Conversational(b1: BotState, m: string, sender: string, gen: Generation, now: int)
    : (r: (BotState, Outcome))
    requires sender in b1.contexts
    // a failed generation keeps every state change made before it
    ensures gen.GenerationFailed? ==>
              r.0 == SyncAndNegotiate(CaptureContact(b1, m, sender, now), m, sender, now)
    ensures gen.GenerationFailed? <==> r.1 == Failed
    ensures gen.Generated? ==> r.1.Reply?
  {
    var b2 := CaptureContact(b1, m, sender, now);
    var u := UseChatGPT(b2, m, sender, gen, now);
    if u.1.None? then (u.0, Failed)
    else
      var f := Finish(u.0, sender, u.1.value, b1.contexts[sender].preferences.language, now);
      (f.0, Reply(f.1))
  }

  /** The three stages of a conversational turn, named for the lemmas below. */
  function Stages(b: BotState, m: string, sender: string, now: int): (r: (BotState, BotState, BotState))
    ensures r.0 == Admit(b, m, sender, now)
    ensures sender in r.0.contexts && r.1 == CaptureContact(r.0, m, sender, now)
    ensures sender in r.1.contexts && r.2 == SyncAndNegotiate(r.1, m, sender, now)
  {
    var b1 := Admit(b, m, sender, now);
    var b2 := CaptureContact(b1, m, sender, now);
    (b1, b2, SyncAndNegotiate(b2, m, sender, now))
  }

  /** `handleMessage` is the stages followed by the reply, as the lemmas below use it. */
  lemma HandleMessageUnfold(b: BotState, m: string, sender: string, gen: Generation, now: int)
    requires Classify(m) == Converse
    ensures var (b1, b2, b3) := Stages(b, m, sender, now);
            var r := HandleMessage(b, m, sender, gen, now);
            && (gen.GenerationFailed? ==> r == (b3, Failed))
            && (gen.Generated? ==>
                  var (b4, reply) := Finish(b3, sender, Trim(gen.text), b1.contexts[sender].preferences.language, now);
                  r == (b4, Reply(reply)))
  {
  }

  /** Contact capture and the negotiation leave the history as admission left it. */
  lemma StagesKeepHistory(b: BotState, m: string, sender: string, now: int)
    ensures var st := Stages(b, m, sender, now);
            sender in st.2.contexts && st.2.contexts[sender].history == st.0.contexts[sender].history
  {
    var st := Stages(b, m, sender, now);
    assert st.1.contexts[sender].history == st.0.contexts[sender].history;
  }

  /** A conversational turn records the reply, if any, right after the inbound message. */
  lemma ConversationalRecordsReply(b: BotState, m: string, sender: string, gen: Generation, now: int)
    requires Classify(m) == Converse
    ensures var r := HandleMessage(b, m, sender, gen, now);
            var h0 := Admit(b, m, sender, now).contexts[sender].history;
            var h := r.0.contexts[sender].history;
            && (r.1.Reply? ==> |h| >= 2 && h[|h| - 2] == h0[|h0| - 1]
                                        && h[|h| - 1] == HistoryEntry(now, Trim(gen.text), false))
            && (!r.1.Reply? ==> h == h0)
  {
    var r := HandleMessage(b, m, sender, gen, now);
    var st := Stages(b, m, sender, now);
    HandleMessageUnfold(b, m, sender, gen, now);
    StagesKeepHistory(b, m, sender, now);
    if gen.Generated? {
      var f := Finish(st.2, sender, Trim(gen.text), st.0.contexts[sender].preferences.language, now);
      assert r == (f.0, Reply(f.1));
    } else {
      assert r == (st.2, Failed);
    }
  }

  /** The inbound message is on record whatever the route, before the reply. */
  lemma InboundRecordedFirst(b: BotState, m: string, sender: string, gen: Generation, now: int)
    ensures var r := HandleMessage(b, m, sender, gen, now);
            var h := r.0.contexts[sender].history;
            && |h| >= 1
            && (r.1.Reply? ==> |h| >= 2 && h[|h| - 2] == HistoryEntry(now, m, true)
                                        && h[|h| - 1] == HistoryEntry(now, Trim(gen.text), false))
            && (!r.1.Reply? ==> h[|h| - 1] == HistoryEntry(now, m, true))
  {
    var h0 := Admit(b, m, sender, now).contexts[sender].history;
    assert h0 != [] && h0[|h0| - 1] == HistoryEntry(now, m, true);
    if Classify(m) == Converse {
      ConversationalRecordsReply(b, m, sender, gen, now);
    }
  }

  /** The language is detected once and then kept; the creation instant is never refreshed. */
  lemma LanguageAndCreationKept(b: BotState, m: string, sender: string, gen: Generation, now: int)
    ensures var c := Lookup(b.contexts, sender, now);
            var c' := HandleMessage(b, m, sender, gen, now).0.contexts[sender];
            && c'.preferences.language ==
                 (if c.preferences.language.Some? then c.preferences.language else Some(DetectLanguage(m)))
            && c'.lastInteraction == c.lastInteraction
  {
    if Classify(m) == Converse {
      HandleMessageUnfold(b, m, sender, gen, now);
    }
  }

  /** The shared negotiation moves only for a conversational, non-zero offer from an open context. */
  lemma OfferReachesNegotiation(b: BotState, m: string, sender: string, gen: Generation, now: int)
    ensures var c := Lookup(b.contexts, sender, now);
            var reaches := Classify(m) == Converse && TruthyInt(PossibleOffer(m))
                           && !c.priceNegotiation.completed && !b.negotiation.complete;
            HandleMessage(b, m, sender, gen, now).0.negotiation ==
              (if reaches then HandleOffer(b.negotiation, PossibleOffer(m).value).0 else b.negotiation)
  {
    if Classify(m) == Converse {
      HandleMessageUnfold(b, m, sender, gen, now);
    }
  }

  /** Contact details are stored, possibly as null, only when something was extracted. */
  lemma ContactCapturedOnlyWhenExtracted(b: BotState, m: string, sender: string, gen: Generation, now: int)
    ensures var c := Lookup(b.contexts, sender, now);
            var p' := HandleMessage(b, m, sender, gen, now).0.contexts[sender].preferences;
            var info := ExtractContactInfo(m);
            var captured := Classify(m) == Converse && IsContactInfo(m)
                            && (TruthyString(info.name) || TruthyString(info.phone));
            && (captured ==> p'.contactName == info.name && p'.contactPhone == info.phone)
            && (!captured ==> p'.contactName == c.preferences.contactName
                              && p'.contactPhone == c.preferences.contactPhone)
  {
    if Classify(m) == Converse {
      HandleMessageUnfold(b, m, sender, gen, now);
    }
  }

  /** A completion of the shared negotiation, or an accepting offer, completes the sender's context. */
  lemma CompletionSynced(b: BotState, m: string, sender: string, gen: Generation, now: int)
    requires Classify(m) == Converse
    ensures var c := Lookup(b.contexts, sender, now);
            var offer := PossibleOffer(m);
            var n' := HandleMessage(b, m, sender, gen, now).0.contexts[sender].priceNegotiation;
            && (b.negotiation.complete ==> n'.completed)
            && ((b.negotiation.complete && !c.priceNegotiation.completed
                 && TruthyInt(b.negotiation.agreedPrice)) ==>
                  n'.agreedPrice == b.negotiation.agreedPrice)
            && ((TruthyInt(offer) && !c.priceNegotiation.completed && !b.negotiation.complete
                 && offer.value >= b.negotiation.currentPrice) ==>
                  n'.completed && n'.agreedPrice == offer)
  {
    HandleMessageUnfold(b, m, sender, gen, now);
  }

  /** The reply carries a suggestion exactly while the negotiation is open and one applies. */
  lemma ReplyCarriesSuggestion(b: BotState, m: string, sender: string, text: string, now: int)
    requires Classify(m) == Converse
    ensures var r := HandleMessage(b, m, sender, Generated(text), now);
            var c' := r.0.contexts[sender];
            var open := !c'.priceNegotiation.completed && NextStep(c').Some?;
            && r.1.Reply?
            && (open ==> r.1.text == Trim(text) + "\n\n"
                                     + SuggestionText(NextStep(c').value, c'.preferences.language))
            && (!open ==> r.1.text == Trim(text))
  {
    HandleMessageUnfold(b, m, sender, Generated(text), now);
    LanguageAndCreationKept(b, m, sender, Generated(text), now);
  }

  /** What every context reachable through `handleMessage` satisfies. */
  predicate ContextInv(c: Context) {
    && |c.history| <= HistoryCap
    && (c.priceNegotiation.completed ==> TruthyInt(c.priceNegotiation.agreedPrice))
    // the context's `lastOffer` is only ever written together with a completion
    && (TruthyInt(c.priceNegotiation.lastOffer) ==> c.priceNegotiation.completed)
  }

  predicate BotInv(b: BotState) {
    && Valid(b.negotiation)
    && (forall u | u in b.contexts :: ContextInv(b.contexts[u]))
    // a context is completed only after the shared negotiation is
    && (forall u | u in b.contexts :: b.contexts[u].priceNegotiation.completed ==> b.negotiation.complete)
  }

  lemma StartSatisfiesInv()
    ensures BotInv(Start())
  {
  }

  lemma AdmitPreservesInv(b: BotState, m: string, sender: string, now: int)
    requires BotInv(b)
    ensures BotInv(Admit(b, m, sender, now))
  {
    var b1 := Admit(b, m, sender, now);
    assert ContextInv(b1.contexts[sender]);
  }

  lemma CapturePreservesInv(b: BotState, m: string, sender: string, now: int)
    requires BotInv(b) && sender in b.contexts
    ensures BotInv(CaptureContact(b, m, sender, now))
  {
    var b1 := CaptureContact(b, m, sender, now);
    assert ContextInv(b1.contexts[sender]);
  }

  lemma SyncPreservesInv(b: BotState, m: string, sender: string, now: int)
    requires BotInv(b) && sender in b.contexts
    ensures BotInv(SyncAndNegotiate(b, m, sender, now))
  {
    var b1 := SyncAndNegotiate(b, m, sender, now);
    var offer := PossibleOffer(m);
    var c := b.contexts[sender];
    if TruthyInt(offer) && !c.priceNegotiation.completed && !b.negotiation.complete {
      HandleOfferPreservesValid(b.negotiation, offer.value);
    } else {
      assert b1.negotiation == b.negotiation;
    }
    assert b.negotiation.complete ==> b1.negotiation.complete;
    assert ContextInv(b1.contexts[sender]);
  }

  lemma FinishPreservesInv(b: BotState, sender: string, response: string, language: Option<Language>, now: int)
    requires BotInv(b) && sender in b.contexts
    ensures BotInv(Finish(b, sender, response, language, now).0)
  {
    var b1 := Finish(b, sender, response, language, now).0;
    assert ContextInv(b1.contexts[sender]);
  }

  /** `handleMessage` keeps the bot invariant. */
  lemma HandleMessagePreservesInv(b: BotState, m: string, sender: string, gen: Generation, now: int)
    requires BotInv(b)
    ensures BotInv(HandleMessage(b, m, sender, gen, now).0)
  {
    var (b1, b2, b3) := Stages(b, m, sender, now);
    AdmitPreservesInv(b, m, sender, now);
    if Classify(m) == Converse {
      HandleMessageUnfold(b, m, sender, gen, now);
      CapturePreservesInv(b1, m, sender, now);
      SyncPreservesInv(b2, m, sender, now);
      if gen.Generated? {
        FinishPreservesInv(b3, sender, Trim(gen.text), b1.contexts[sender].preferences.language, now);
      }
    }
  }

  /**
   * In a reachable state the "continue or arrange a viewing" prompt never
   * shows: the context's `lastOffer` is set only when it is completed, and
   * a completed context gets no suggestion.
   */
  lemma ContinuePromptUnreachable(b: BotState, u: string)
    requires BotInv(b) && u in b.contexts
    ensures NextStep(b.contexts[u]) != Some(ContinueOrViewing)
  {
  }

  /**
   * The negotiation is shared: once one sender's offer is accepted, the
   * next conversational message from ANY sender marks that sender's
   * context completed at the first sender's price.
   */
  lemma AcceptanceLeaksToOtherSenders(
    b: BotState, mA: string, a: string, genA: Generation,
    mB: string, u: string, genB: Generation, now: int, later: int)
    requires BotInv(b)
    requires Classify(mA) == Converse && Classify(mB) == Converse
    requires !b.negotiation.complete
    requires TruthyInt(PossibleOffer(mA)) && PossibleOffer(mA).value >= b.negotiation.currentPrice
    ensures var b1 := HandleMessage(b, mA, a, genA, now).0;
            var b2 := HandleMessage(b1, mB, u, genB, later).0;
            && b1.negotiation.complete
            && b2.contexts[u].priceNegotiation.completed
            && b2.contexts[u].priceNegotiation.agreedPrice == PossibleOffer(mA)
            && b2.negotiation == b1.negotiation
  {
    FirstAcceptance(b, mA, a, genA, now);
    var b1 := HandleMessage(b, mA, a, genA, now).0;
    OfferReachesNegotiation(b1, mB, u, genB, later);
    if u in b1.contexts && b1.contexts[u].priceNegotiation.completed {
      // only `a` can be completed here, and at the accepted price
      CompletedContextKept(b1, mB, u, genB, later);
    } else {
      CompletionSynced(b1, mB, u, genB, later);
    }
  }

  /** An accepted offer completes the negotiation, and no context but the sender's is completed. */
  lemma FirstAcceptance(b: BotState, m: string, a: string, gen: Generation, now: int)
    requires BotInv(b)
    requires Classify(m) == Converse
    requires !b.negotiation.complete
    requires TruthyInt(PossibleOffer(m)) && PossibleOffer(m).value >= b.negotiation.currentPrice
    ensures var b1 := HandleMessage(b, m, a, gen, now).0;
            && b1.negotiation.complete && b1.negotiation.agreedPrice == PossibleOffer(m)
            && forall u | u in b1.contexts && b1.contexts[u].priceNegotiation.completed ::
                 u == a && b1.contexts[u].priceNegotiation.agreedPrice == PossibleOffer(m)
  {
    var offer := PossibleOffer(m);
    var b1 := HandleMessage(b, m, a, gen, now).0;
    var ca := Lookup(b.contexts, a, now);
    assert !ca.priceNegotiation.completed;
    OfferReachesNegotiation(b, m, a, gen, now);
    CompletionSynced(b, m, a, gen, now);
    assert b1.negotiation == HandleOffer(b.negotiation, offer.value).0;
    forall u | u in b1.contexts && u != a
      ensures !b1.contexts[u].priceNegotiation.completed
    {
      assert b1.contexts[u] == b.contexts[u];
    }
  }

  /** A context already completed keeps its negotiation through a conversational turn. */
  lemma CompletedContextKept(b: BotState, m: string, u: string, gen: Generation, now: int)
    requires Classify(m) == Converse
    requires u in b.contexts && b.contexts[u].priceNegotiation.completed
    ensures HandleMessage(b, m, u, gen, now).0.contexts[u].priceNegotiation == b.contexts[u].priceNegotiation
  {
    var (s1, s2, s3) := Stages(b, m, u, now);
    HandleMessageUnfold(b, m, u, gen, now);
    assert s3.contexts[u].priceNegotiation == b.contexts[u].priceNegotiation;
  }

  /** Once the shared negotiation is complete, no message changes it any more. */
  lemma CompletedNegotiationIsFrozen(b: BotState, m: string, sender: string, gen: Generation, now: int)
    requires b.negotiation.complete
    ensures HandleMessage(b, m, sender, gen, now).0.negotiation == b.negotiation
  {
    OfferReachesNegotiation(b, m, sender, gen, now);
  }

  /**
   * The 24-hour sweep counts from creation: a sender who keeps writing is
   * still dropped once the context is older than a day.
   */
  lemma ActiveSenderStillEvicted(b: BotState, m: string, sender: string, gen: Generation, now: int, sweep: int)
    requires sender in b.contexts && Stale(b.contexts[sender], sweep)
    ensures sender !in CleanupOldContexts(HandleMessage(b, m, sender, gen, now).0.contexts, sweep)
  {
    LanguageAndCreationKept(b, m, sender, gen, now);
  }

  /** A stored Arabic preference survives a message with no Arabic script in it. */
  lemma LanguageIsSticky(b: BotState, m: string, sender: string, gen: Generation, now: int)
    requires sender in b.contexts && b.contexts[sender].preferences.language == Some(Arabic)
    requires forall i | 0 <= i < |m| :: !IsArabicChar(m[i])
    ensures DetectLanguage(m) == English
    ensures HandleMessage(b, m, sender, gen, now).0.contexts[sender].preferences.language == Some(Arabic)
  {
    LanguageAndCreationKept(b, m, sender, gen, now);
  }
}

=== FILE: contact.dfy ===
/**
 * src/ContactHandler.js: does a message look like contact details, and the
 * name and phone number it carries. Each regular expression is written out
 * as a predicate (for `test`) or a left-to-right scanner (for `match`) that
 * finds the engine's match; the name capture may keep leading whitespace the
 * engine's `\s*` consumes, which `trim` removes either way.
 */
module Contact {
  import opened Wrappers
  import opened Text

  /** Label words of the first `isContactInfo` alternative. */
  const Labels: seq<string> := ["contact", "name", "number", "mobile", "phone", "details"]
  /** Self-introductions of the second alternative. */
  const SelfPhrases: seq<string> := ["my name", "my number", "my mobile", "my phone", "my contact"]
  /** What may end the captured name: `(?:,|and|mobile|phone|number)`. */
  const Terminators: seq<string> := [",", "and", "mobile", "phone", "number"]
  /** `\d{9,}`: the shortest digit run taken for a phone number. */
  const PhoneDigits: nat := 9

  /** `.*:` from `p`: a colon at or after `p` on the same line. */
  predicate ColonLater(m: string, p: int) {
    exists j | 0 <= p <= j < |m| ::
      m[j] == ':' && forall k | p <= k < j :: !IsLineTerminator(m[k])
  }

  /** `.*\d+` from `p`: a digit at or after `p` on the same line. */
  predicate DigitLater(m: string, p: int) {
    exists j | 0 <= p <= j < |m| ::
      IsDigit(m[j]) && forall k | p <= k < j :: !IsLineTerminator(m[k])
  }

  /** `n` digits in a row start at `i`. */
  predicate DigitsFrom(m: string, i: int, n: nat) {
    0 <= i && i + n <= |m| && forall k | i <= k < i + n :: IsDigit(m[k])
  }

  /** `/\d{n,}/.test(m)`. */
  predicate HasDigitRun(m: string, n: nat) {
    exists i | 0 <= i <= |m| :: DigitsFrom(m, i, n)
  }

  /** `/(?:contact|name|number|mobile|phone|details).*:/i`. */
  predicate LabelledColon(m: string) {
    exists i, w | 0 <= i <= |m| && w in Labels :: AtIgnoreCase(m, i, w) && ColonLater(m, i + |w|)
  }

  /** `/.*(?:my name|my number|my mobile|my phone|my contact).*\d+/i`. */
  predicate SelfIntroduced(m: string) {
    exists i, w | 0 <= i <= |m| && w in SelfPhrases :: AtIgnoreCase(m, i, w) && DigitLater(m, i + |w|)
  }

  /** `isContactInfo(message)`. */
  predicate IsContactInfo(m: string): (r: bool)
    // a comma and a phone number the extractor finds are enough
    ensures Contains(m, ",") && ExtractContactInfo(m).phone.Some? ==> r
    // nothing is contact details without a label, a self-introduction or a comma
    ensures r ==> Mentions(m, Labels) || Mentions(m, SelfPhrases) || Contains(m, ",")
    // nor without a colon or a digit somewhere
    ensures r ==> exists j | 0 <= j < |m| :: m[j] == ':' || IsDigit(m[j])
  {
    ContactNeedsColonOrDigit(m);
    LabelledColon(m) || SelfIntroduced(m) || (Contains(m, ",") && HasDigitRun(m, PhoneDigits))
  }

  /** Each alternative of `isContactInfo` needs a colon or a digit. */
  lemma ContactNeedsColonOrDigit(m: string)
    ensures LabelledColon(m) || SelfIntroduced(m) || HasDigitRun(m, PhoneDigits) ==>
              exists j | 0 <= j < |m| :: m[j] == ':' || IsDigit(m[j])
  {
    if LabelledColon(m) {
      var i, w :| 0 <= i <= |m| && w in Labels && AtIgnoreCase(m, i, w) && ColonLater(m, i + |w|);
      var j :| 0 <= i + |w| <= j < |m| && m[j] == ':' && forall k | i + |w| <= k < j :: !IsLineTerminator(m[k]);
      assert m[j] == ':';
    } else if SelfIntroduced(m) {
      var i, w :| 0 <= i <= |m| && w in SelfPhrases && AtIgnoreCase(m, i, w) && DigitLater(m, i + |w|);
      var j :| 0 <= i + |w| <= j < |m| && IsDigit(m[j]) && forall k | i + |w| <= k < j :: !IsLineTerminator(m[k]);
      assert IsDigit(m[j]);
    } else if HasDigitRun(m, PhoneDigits) {
      var i :| 0 <= i <= |m| && DigitsFrom(m, i, PhoneDigits);
      assert IsDigit(m[i]);
    }
  }

  /**
   * `m.match(/(?:\d{9,})/)` scanning from `i`, a position that does not sit
   * inside a digit run: the bounds of the first digit run of nine or more.
   */
  function FindPhone(m: string, i: nat): (r: Option<(nat, nat)>)
    requires i <= |m|
    requires i == 0 || !IsDigit(m[i - 1])
    ensures r.Some? ==> i <= r.value.0 && PhoneRun(m, r.value.0, r.value.1) && NoPhoneIn(m, i, r.value.0)
    ensures r.None? ==> NoPhoneIn(m, i, |m| + 1)
    decreases |m| - i
  {
    if i == |m| then None
    else if !IsDigit(m[i]) then
      var r := FindPhone(m, i + 1);
      NoPhoneJoin(m, i, i + 1, if r.Some? then r.value.0 else |m| + 1);
      r
    else
      var e := DigitEnd(m, i);
      if e - i >= PhoneDigits then Some((i, e))
      else
        ShortRunHasNoPhone(m, i, e - i);
        if e == |m| then None
        else
          var r := FindPhone(m, e + 1);
          NoPhoneJoin(m, i, e + 1, if r.Some? then r.value.0 else |m| + 1);
          r
  }

  /** A maximal run of at least nine digits occupies `[s, e)`. */
  predicate PhoneRun(m: string, s: int, e: int) {
    && 0 <= s && s + PhoneDigits <= e <= |m|
    && DigitsFrom(m, s, e - s)
    && (s == 0 || !IsDigit(m[s - 1]))
    && (e == |m| || !IsDigit(m[e]))
  }

  /** No nine digits in a row start anywhere in `[lo, hi)`. */
  predicate NoPhoneIn(m: string, lo: int, hi: int) {
    forall j | lo <= j < hi :: !DigitsFrom(m, j, PhoneDigits)
  }

  lemma NoPhoneJoin(m: string, lo: int, mid: int, hi: int)
    requires lo <= mid <= hi
    ensures NoPhoneIn(m, lo, mid) && NoPhoneIn(m, mid, hi) ==> NoPhoneIn(m, lo, hi)
  {
  }

  /** The end of the digit run that starts at `i`. */
  function DigitEnd(m: string, i: nat): (j: nat)
    requires i <= |m|
    ensures i <= j <= |m|
    ensures forall k | i <= k < j :: IsDigit(m[k])
    ensures j < |m| ==> !IsDigit(m[j])
    decreases |m| - i
  {
    if i < |m| && IsDigit(m[i]) then DigitEnd(m, i + 1) else i
  }

  /** A run shorter than nine digits, ended by a non-digit or the text's end, holds no phone. */
  lemma ShortRunHasNoPhone(m: string, i: nat, n: nat)
    requires i + n <= |m| && n < PhoneDigits
    requires i + n < |m| ==> !IsDigit(m[i + n])
    ensures NoPhoneIn(m, i, i + n + 1)
  {
    forall j | i <= j <= i + n
      ensures !DigitsFrom(m, j, PhoneDigits)
    {
      if i + n < |m| {
        assert j <= i + n < j + PhoneDigits;
      }
    }
  }

  /** `[\w\s]`: what the captured name is made of. */
  predicate InNameClass(c: char) {
    IsWordChar(c) || IsSpace(c)
  }

  /** End of the maximal `[\w\s]` run starting at `c`. */
  function NameRunEnd(m: string, c: nat): (e: nat)
    requires c <= |m|
    ensures c <= e <= |m|
    ensures forall k | c <= k < e :: InNameClass(m[k])
    ensures e == |m| || !InNameClass(m[e])
    decreases |m| - c
  {
    if c < |m| && InNameClass(m[c]) then NameRunEnd(m, c + 1) else c
  }

  /** End of the maximal `\s` run starting at `a`. */
  function SpaceRunEnd(m: string, a: nat): (e: nat)
    requires a <= |m|
    ensures a <= e <= |m|
    ensures forall k | a <= k < e :: IsSpace(m[k])
    ensures e == |m| || !IsSpace(m[e])
    decreases |m| - a
  {
    if a < |m| && IsSpace(m[a]) then SpaceRunEnd(m, a + 1) else a
  }

  /** One of the terminators starts at `k`, ignoring case. */
  predicate TerminatorAt(m: string, k: int) {
    exists w | w in Terminators :: AtIgnoreCase(m, k, w)
  }

  /** The largest position in `(lo, k]` where a terminator starts. */
  function LastTerminator(m: string, lo: nat, k: nat): (r: Option<nat>)
    requires lo <= k <= |m|
    ensures r.Some? ==>
              lo < r.value <= k && TerminatorAt(m, r.value)
              && forall j | r.value < j <= k :: !TerminatorAt(m, j)
    ensures r.None? ==> forall j | lo < j <= k :: !TerminatorAt(m, j)
    decreases k - lo
  {
    if k == lo then None
    else if TerminatorAt(m, k) then Some(k)
    else LastTerminator(m, lo, k - 1)
  }

  /**
   * `\s*([\w\s]+)(?:,|and|…)` from `c`: both quantifiers are greedy, so the
   * engine tries the capture's end from the far end of the `[\w\s]` run
   * inwards and stops at the first terminator, the rightmost one. The
   * capture begins at `c` up to leading whitespace, which `trim` drops.
   */
  function CaptureEnd(m: string, c: nat): (r: Option<nat>)
    requires c <= |m|
    ensures r.Some? ==>
              c < r.value <= |m| && TerminatorAt(m, r.value)
              && forall j | c <= j < r.value :: InNameClass(m[j])
  {
    LastTerminator(m, c, NameRunEnd(m, c))
  }

  /** `:?`: skip one colon if there is one. Not taking an available colon cannot
      succeed, since a capture cannot start with `:`. */
  function AfterColon(m: string, b: nat): (c: nat)
    requires b <= |m|
    ensures b <= c <= |m|
  {
    if b < |m| && m[b] == ':' then b + 1 else b
  }

  /** `(?:\s+is)` right at `a`: where it ends, if it matches. */
  function AfterIs(m: string, a: nat): (r: Option<nat>)
    requires a <= |m|
    ensures r.Some? ==> a < r.value <= |m| && AtIgnoreCase(m, r.value - 2, "is")
  {
    var w := SpaceRunEnd(m, a);
    if w > a && AtIgnoreCase(m, w, "is") then Some(w + 2) else None
  }

  /** The rest of the pattern from `b`: capture bounds `(c, k)`. */
  function CaptureAfter(m: string, b: nat): (r: Option<(nat, nat)>)
    requires b <= |m|
    ensures r.Some? ==>
              var (c, k) := r.value;
              b <= c < k <= |m| && TerminatorAt(m, k)
              && forall j | c <= j < k :: InNameClass(m[j])
  {
    var c := AfterColon(m, b);
    match CaptureEnd(m, c)
    case Some(k) => Some((c, k))
    case None => None
  }

  /** The whole name pattern with `name` at `s`: `(?:\s+is)?` is tried taken first, then skipped. */
  function NameAt(m: string, s: nat): (r: Option<(nat, nat)>)
    requires s + 4 <= |m|
    ensures r.Some? ==>
              var (c, k) := r.value;
              s + 4 <= c < k <= |m| && TerminatorAt(m, k)
              && forall j | c <= j < k :: InNameClass(m[j])
  {
    var viaIs := match AfterIs(m, s + 4)
                 case Some(p) => CaptureAfter(m, p)
                 case None => None;
    if viaIs.Some? then viaIs else CaptureAfter(m, s + 4)
  }

  /** The name pattern matches with its `name` at `n`. */
  predicate NameMatchAt(m: string, n: nat) {
    n + 4 <= |m| && AtIgnoreCase(m, n, "name") && NameAt(m, n).Some?
  }

  /** The leftmost start from `s` on at which the name pattern matches. */
  function FindName(m: string, s: nat): (r: Option<(nat, nat)>)
    ensures r.Some? ==>
              var (c, k) := r.value;
              && c < k <= |m| && TerminatorAt(m, k)
              && (forall j | c <= j < k :: InNameClass(m[j]))
              && exists n | s <= n && n + 4 <= c :: AtIgnoreCase(m, n, "name")
    // `match` gives null exactly when no start from `s` on matches
    ensures r.None? <==> forall n | s <= n <= |m| :: !NameMatchAt(m, n)
    // and otherwise the match at the leftmost such start
    ensures r.Some? ==>
              exists n | s <= n <= |m| ::
                && NameMatchAt(m, n) && r == NameAt(m, n)
                && forall j | s <= j < n :: !NameMatchAt(m, j)
    decreases |m| - s
  {
    if s + 4 > |m| then None
    else if NameMatchAt(m, s) then NameAt(m, s)
    else FindName(m, s + 1)
  }

  /** The result object: both fields always present, `null` when not found. */
  datatype ContactInfo = ContactInfo(name: Option<string>, phone: Option<string>)

  /** `extractContactInfo(message)`. */
  function ExtractContactInfo(m: string): (r: ContactInfo)
    // phone: present exactly when nine digits stand together
    ensures r.phone.Some? <==> HasDigitRun(m, PhoneDigits)
    // and then it is the leftmost maximal such run
    ensures r.phone.Some? ==>
              exists s, e | 0 <= s && s + PhoneDigits <= e <= |m| ::
                && r.phone.value == m[s..e]
                && DigitsFrom(m, s, e - s)
                && (s == 0 || !IsDigit(m[s - 1]))
                && (e == |m| || !IsDigit(m[e]))
                && forall j | 0 <= j < s :: !DigitsFrom(m, j, PhoneDigits)
    // name: trimmed, made of word characters and whitespace only
    ensures r.name.Some? ==>
              var n := r.name.value;
              && (n != [] ==> !IsSpace(n[0]) && !IsSpace(n[|n| - 1]))
              && forall i | 0 <= i < |n| :: InNameClass(n[i])
    // present exactly when the pattern matches at some `name`
    ensures r.name.Some? <==> exists n | 0 <= n <= |m| :: NameMatchAt(m, n)
    // and only found after a `name` label that a terminator follows
    ensures r.name.Some? ==>
              exists s, k | 0 <= s && s + 4 < k :: AtIgnoreCase(m, s, "name") && TerminatorAt(m, k)
  {
    var found := FindName(m, 0);
    var p := FindPhone(m, 0);
    NameShape(m, found);
    var name := if found.Some? then Some(Trim(m[found.value.0..found.value.1])) else None;
    if p.Some? then
      assert DigitsFrom(m, p.value.0, PhoneDigits);
      ContactInfo(name, Some(m[p.value.0..p.value.1]))
    else
      ContactInfo(name, None)
  }

  /** Every character `trim` keeps is a character of its input. */
  lemma TrimKeepsClass(s: string)
    requires forall j | 0 <= j < |s| :: InNameClass(s[j])
    ensures forall i | 0 <= i < |Trim(s)| :: InNameClass(Trim(s)[i])
  {
    var a := SkipSpaces(s, 0);
    var r := Trim(s);
    assert r == s[a..DropSpaces(s, a, |s|)];
    forall i | 0 <= i < |r|
      ensures InNameClass(r[i])
    {
      assert r[i] == s[a + i];
    }
  }

  /** The trimmed capture keeps the shape of the capture. */
  lemma NameShape(m: string, found: Option<(nat, nat)>)
    requires found.Some? ==>
               var (c, k) := found.value;
               c < k <= |m| && forall j | c <= j < k :: InNameClass(m[j])
    ensures found.Some? ==>
              var (c, k) := found.value;
              var n := Trim(m[c..k]);
              forall i | 0 <= i < |n| :: InNameClass(n[i])
  {
    if found.Some? {
      var (c, k) := found.value;
      var cap := m[c..k];
      assert forall j | 0 <= j < |cap| :: cap[j] == m[c + j];
      TrimKeepsClass(cap);
    }
  }

  /** A comma next to a nine-digit number is always taken for contact details. */
  lemma CommaAndPhoneIsContact(m: string)
    requires Contains(m, ",")
    requires ExtractContactInfo(m).phone.Some?
    ensures IsContactInfo(m)
  {
  }

  /** A label word with a colon later on the same line is contact details, whatever else is there. */
  lemma LabelThenColonIsContact(m: string, i: nat, w: string, j: nat)
    requires w in Labels && AtIgnoreCase(m, i, w)
    requires i + |w| <= j < |m| && m[j] == ':'
    requires forall k | i + |w| <= k < j :: !IsLineTerminator(m[k])
    ensures IsContactInfo(m)
  {
    assert ColonLater(m, i + |w|);
  }
}

=== FILE: conversation.dfy ===
/**
 * The per-user session store of src/ConversationContext.js: a map from
 * sender id to a context record, created lazily, with a bounded history,
 * shallow-merge updates, a next-step suggestion and a 24-hour sweep.
 * `Date.now()` is the explicit parameter `now`.
 */
module Conversation {
  import opened Wrappers

  /** The history keeps at most this many entries. */
  const HistoryCap: nat := 10
  /** 24 hours in milliseconds: the age at which the sweep drops a context. */
  const DayMs: int := 24 * 60 * 60 * 1000

  datatype Language = Arabic | English

  datatype Preferences = Preferences(
    language: Option<Language>,
    contactName: Option<string>,
    contactPhone: Option<string>)

  datatype HistoryEntry = HistoryEntry(timestamp: int, message: string, isUser: bool)

  datatype PriceNegotiation = PriceNegotiation(
    completed: bool,
    agreedPrice: Option<int>,
    lastOffer: Option<int>)

  datatype Context = Context(
    preferences: Preferences,
    history: seq<HistoryEntry>,
    priceNegotiation: PriceNegotiation,
    lastInteraction: int)

  type Store = map<string, Context>

  /** The record `getUserContext` creates for a sender it has not seen. */
  function NewContext(now: int): (c: Context)
    // within the history bound, and "completed implies an agreed price" holds
    ensures |c.history| <= HistoryCap
    ensures c.priceNegotiation.completed ==> TruthyInt(c.priceNegotiation.agreedPrice)
    // a sender seen for the first time is asked for contact details first
    ensures NextStep(c) == Some(AskContact)
  {
    Context(Preferences(None, None, None), [],
            PriceNegotiation(false, None, None), now)
  }

  /** The context `getUserContext` hands back, without the store it leaves. */
  function Lookup(store: Store, userId: string, now: int): Context {
    if userId in store then store[userId] else NewContext(now)
  }

  /** Only `userId`'s entry may differ between the two stores, and it exists afterwards. */
  predicate OnlyTouches(store: Store, store': Store, userId: string) {
    && store'.Keys == store.Keys + {userId}
    && forall u :: u in store && u != userId ==> store'[u] == store[u]
  }

  /** `getUserContext(userId)`: the stored context, created on first access. */
  function GetUserContext(store: Store, userId: string, now: int): (r: (Store, Context))
    ensures userId in r.0 && r.0[userId] == r.1
    ensures OnlyTouches(store, r.0, userId)
    ensures userId in store ==> r.0 == store && r.1 == store[userId]
    ensures userId !in store ==> r.1 == NewContext(now)
  {
    if userId in store then (store, store[userId])
    else (store[userId := NewContext(now)], NewContext(now))
  }

  /** A second `getUserContext` for the same sender changes nothing and returns the same record. */
  lemma GetUserContextIdempotent(store: Store, userId: string, now: int, later: int)
    ensures var (s1, c1) := GetUserContext(store, userId, now);
            GetUserContext(s1, userId, later) == (s1, c1)
  {
  }

  /** The last `n` elements of `s` (all of `s` when it is shorter). */
  function LastN<T>(s: seq<T>, n: nat): (r: seq<T>)
    ensures |r| <= n && |r| <= |s|
  {
    if |s| <= n then s else s[|s| - n..]
  }

  /** Push one entry, then shift the oldest if the history grew past the cap. */
  function Append(h: seq<HistoryEntry>, e: HistoryEntry): (r: seq<HistoryEntry>)
    ensures |h| <= HistoryCap ==> r == LastN(h + [e], HistoryCap)
    ensures |h| <= HistoryCap ==> |r| <= HistoryCap
    ensures r != [] && r[|r| - 1] == e
    ensures h != [] ==> |r| >= 2 && r[|r| - 2] == h[|h| - 1]
  {
    var h' := h + [e];
    if |h'| > HistoryCap then h'[1..] else h'
  }

  /** `addToHistory(userId, message, isUser)`. */
  function AddToHistory(store: Store, userId: string, message: string, isUser: bool, now: int)
    : (store': Store)
    ensures OnlyTouches(store, store', userId)
    ensures var c := Lookup(store, userId, now);
            var c' := store'[userId];
            && c'.preferences == c.preferences
            && c'.priceNegotiation == c.priceNegotiation
            && c'.lastInteraction == c.lastInteraction
            && c'.history != [] && c'.history[|c'.history| - 1] == HistoryEntry(now, message, isUser)
            && (|c.history| <= HistoryCap ==>
                  c'.history == LastN(c.history + [HistoryEntry(now, message, isUser)], HistoryCap))
  {
    var c := Lookup(store, userId, now);
    store[userId := c.(history := Append(c.history, HistoryEntry(now, message, isUser)))]
  }

  /** Pushing a list of entries one by one. */
  function AppendAll(h: seq<HistoryEntry>, es: seq<HistoryEntry>): seq<HistoryEntry>
    decreases |es|
  {
    if es == [] then h else AppendAll(Append(h, es[0]), es[1..])
  }

  lemma LastNOfLastN<T>(x: seq<T>, e: T, n: nat)
    ensures LastN(LastN(x, n) + [e], n) == LastN(x + [e], n)
  {
  }

  /**
   * Successive appends keep exactly the last ten entries of everything
   * pushed, in order.
   */
  lemma {:induction false} AppendAllKeepsLastTen(h: seq<HistoryEntry>, es: seq<HistoryEntry>)
    requires |h| <= HistoryCap
    ensures AppendAll(h, es) == LastN(h + es, HistoryCap)
    decreases |es|
  {
    if es == [] {
      assert h + es == h;
    } else {
      var x := h + [es[0]];
      var h1 := Append(h, es[0]);
      assert h1 == LastN(x, HistoryCap);
      AppendAllKeepsLastTen(h1, es[1..]);
      assert AppendAll(h, es) == LastN(h1 + es[1..], HistoryCap);
      LastNConcat(x, es[1..], HistoryCap);
      SplitFirst(h, es);
    }
  }

  lemma SplitFirst<T>(h: seq<T>, es: seq<T>)
    requires es != []
    ensures h + es == (h + [es[0]]) + es[1..]
  {
    assert es == [es[0]] + es[1..];
  }

  /** Truncating before appending more gives the same last `n`. */
  lemma {:induction false} LastNConcat<T>(x: seq<T>, ys: seq<T>, n: nat)
    ensures LastN(LastN(x, n) + ys, n) == LastN(x + ys, n)
    decreases |ys|
  {
    if ys == [] {
      assert LastN(x, n) + ys == LastN(x, n);
      assert x + ys == x;
    } else {
      var last := ys[|ys| - 1];
      var init := ys[..|ys| - 1];
      LastNConcat(x, init, n);
      assert LastN(x, n) + ys == (LastN(x, n) + init) + [last];
      assert x + ys == (x + init) + [last];
      LastNOfLastN(LastN(x, n) + init, last, n);
      LastNOfLastN(x + init, last, n);
    }
  }

  /** After ten or more appends the history is exactly the ten newest entries. */
  lemma TenAppendsLeaveOnlyThem(h: seq<HistoryEntry>, es: seq<HistoryEntry>)
    requires |h| <= HistoryCap && |es| >= HistoryCap
    ensures AppendAll(h, es) == es[|es| - HistoryCap..]
  {
    assert AppendAll(h, es) == LastN(h + es, HistoryCap) by {
      AppendAllKeepsLastTen(h, es);
    }
    assert LastN(h + es, HistoryCap) == es[|es| - HistoryCap..] by {
      LastNOfLonger(h, es, HistoryCap);
    }
  }

  lemma LastNOfLonger<T>(h: seq<T>, es: seq<T>, n: nat)
    requires |es| >= n
    ensures LastN(h + es, n) == es[|es| - n..]
  {
    var s := h + es;
    assert s[|h|..] == es;
    if |s| > n {
      assert s[|s| - n..] == s[|h|..][|es| - n..];
    }
  }

  /** The top-level fields an `updateContext` patch may name; `None` means absent. */
  datatype ContextPatch = ContextPatch(
    preferences: Option<Preferences>,
    history: Option<seq<HistoryEntry>>,
    priceNegotiation: Option<PriceNegotiation>,
    lastInteraction: Option<int>)

  /** `updateContext(userId, updates)`: `Object.assign` of the patch onto the context. */
  function UpdateContext(store: Store, userId: string, patch: ContextPatch, now: int)
    : (store': Store)
    ensures OnlyTouches(store, store', userId)
    ensures var c := Lookup(store, userId, now);
            var c' := store'[userId];
            && (patch.preferences.Some? ==> c'.preferences == patch.preferences.value)
            && (patch.preferences.None? ==> c'.preferences == c.preferences)
            && (patch.history.Some? ==> c'.history == patch.history.value)
            && (patch.history.None? ==> c'.history == c.history)
            && (patch.priceNegotiation.Some? ==> c'.priceNegotiation == patch.priceNegotiation.value)
            && (patch.priceNegotiation.None? ==> c'.priceNegotiation == c.priceNegotiation)
            && (patch.lastInteraction.Some? ==> c'.lastInteraction == patch.lastInteraction.value)
            && (patch.lastInteraction.None? ==> c'.lastInteraction == c.lastInteraction)
  {
    var c := Lookup(store, userId, now);
    var c1 := if patch.preferences.Some? then c.(preferences := patch.preferences.value) else c;
    var c2 := if patch.history.Some? then c1.(history := patch.history.value) else c1;
    var c3 := if patch.priceNegotiation.Some? then c2.(priceNegotiation := patch.priceNegotiation.value) else c2;
    var c4 := if patch.lastInteraction.Some? then c3.(lastInteraction := patch.lastInteraction.value) else c3;
    store[userId := c4]
  }

  /** An empty patch only creates the context. */
  lemma EmptyPatchOnlyCreates(store: Store, userId: string, now: int)
    ensures UpdateContext(store, userId, ContextPatch(None, None, None, None), now)
            == GetUserContext(store, userId, now).0
  {
  }

  /** `updatePriceNegotiation(userId, status, price)`. */
  function UpdatePriceNegotiation(store: Store, userId: string, status: string, price: Option<int>, now: int)
    : (store': Store)
    ensures OnlyTouches(store, store', userId)
    ensures var c := Lookup(store, userId, now);
            var c' := store'[userId];
            && c'.preferences == c.preferences
            && c'.history == c.history
            && c'.lastInteraction == c.lastInteraction
            && (c'.priceNegotiation.completed <==> status == "completed")
            && (TruthyInt(price) ==>
                  c'.priceNegotiation.agreedPrice == price && c'.priceNegotiation.lastOffer == price)
            && (!TruthyInt(price) ==>
                  c'.priceNegotiation.agreedPrice == c.priceNegotiation.agreedPrice
                  && c'.priceNegotiation.lastOffer == c.priceNegotiation.lastOffer)
  {
    var c := Lookup(store, userId, now);
    var n := c.priceNegotiation;
    store[userId := c.(priceNegotiation := n.(
      completed := status == "completed",
      agreedPrice := OrInt(price, n.agreedPrice),
      lastOffer := OrInt(price, n.lastOffer)))]
  }

  /** The prompt `suggestNextStep` picks, before it is put into words. */
  datatype Suggestion = AskContact | AskPrice | ContinueOrViewing

  /** The priority order of `suggestNextStep`. */
  function NextStep(c: Context): (r: Option<Suggestion>)
    ensures r == Some(AskContact) <==>
              !TruthyString(c.preferences.contactName) && !TruthyString(c.preferences.contactPhone)
    ensures r == Some(AskPrice) <==>
              (TruthyString(c.preferences.contactName) || TruthyString(c.preferences.contactPhone))
              && !TruthyInt(c.priceNegotiation.lastOffer)
    ensures r == Some(ContinueOrViewing) <==>
              (TruthyString(c.preferences.contactName) || TruthyString(c.preferences.contactPhone))
              && TruthyInt(c.priceNegotiation.lastOffer) && !c.priceNegotiation.completed
    ensures r == None <==>
              (TruthyString(c.preferences.contactName) || TruthyString(c.preferences.contactPhone))
              && TruthyInt(c.priceNegotiation.lastOffer) && c.priceNegotiation.completed
  {
    var p := c.preferences;
    var n := c.priceNegotiation;
    if !TruthyString(p.contactName) && !TruthyString(p.contactPhone) then Some(AskContact)
    else if !TruthyInt(n.lastOffer) then Some(AskPrice)
    else if !n.completed then Some(ContinueOrViewing)
    else None
  }

  /** The wording of each prompt: Arabic when the language is `'arabic'`, English otherwise. */
  function SuggestionText(s: Suggestion, language: Option<Language>): (t: string)
    ensures t != []
  {
    if language == Some(Arabic) then
      match s
      case AskContact =>
        "\U{0644}\U{062A}\U{0633}\U{0647}\U{064A}\U{0644} \U{0627}\U{0644}\U{062A}\U{0648}\U{0627}\U{0635}\U{0644}\U{060C} \U{0647}\U{0644} \U{064A}\U{0645}\U{0643}\U{0646}\U{0643} \U{0645}\U{0634}\U{0627}\U{0631}\U{0643}\U{0629} \U{0627}\U{0633}\U{0645}\U{0643} \U{0648}\U{0631}\U{0642}\U{0645} \U{0647}\U{0627}\U{062A}\U{0641}\U{0643}\U{061F}"
      case AskPrice =>
        "\U{0647}\U{0644} \U{0644}\U{062F}\U{064A}\U{0643} \U{0633}\U{0639}\U{0631} \U{0645}\U{0639}\U{064A}\U{0646} \U{0641}\U{064A} \U{0630}\U{0647}\U{0646}\U{0643} \U{0644}\U{0644}\U{0639}\U{0642}\U{0627}\U{0631}\U{061F}"
      case ContinueOrViewing =>
        "\U{0647}\U{0644} \U{062A}\U{0631}\U{063A}\U{0628} \U{0641}\U{064A} \U{0645}\U{0646}\U{0627}\U{0642}\U{0634}\U{0629} \U{0627}\U{0644}\U{0633}\U{0639}\U{0631} \U{0623}\U{0643}\U{062B}\U{0631} \U{0623}\U{0648} \U{062A}\U{0631}\U{062A}\U{064A}\U{0628} \U{0645}\U{0648}\U{0639}\U{062F} \U{0644}\U{0645}\U{0639}\U{0627}\U{064A}\U{0646}\U{0629} \U{0627}\U{0644}\U{0639}\U{0642}\U{0627}\U{0631}\U{061F}"
    else
      match s
      case AskContact => "To facilitate communication, could you share your name and contact number?"
      case AskPrice => "Do you have a specific price in mind for the property?"
      case ContinueOrViewing => "Would you like to discuss the price further or arrange a viewing?"
  }

  /** `suggestNextStep(userId, language)`: the prompt text, or `null`. */
  function SuggestNextStep(store: Store, userId: string, language: Option<Language>, now: int)
    : (r: (Store, Option<string>))
    ensures r.0 == GetUserContext(store, userId, now).0
    ensures var c := Lookup(store, userId, now);
            && (NextStep(c).None? <==> r.1.None?)
            && (NextStep(c).Some? ==> r.1 == Some(SuggestionText(NextStep(c).value, language)))
    ensures r.1.Some? ==> r.1.value != []
  {
    var (store', c) := GetUserContext(store, userId, now);
    match NextStep(c)
    case None => (store', None)
    case Some(s) => (store', Some(SuggestionText(s, language)))
  }

  /** Older than this cut-off at `now`: the sweep drops it. */
  predicate Stale(c: Context, now: int) {
    c.lastInteraction < now - DayMs
  }

  /** `cleanupOldContexts()`: delete every context created more than a day before `now`. */
  function CleanupOldContexts(store: Store, now: int): (store': Store)
    ensures forall u :: u in store' <==> u in store && !Stale(store[u], now)
    ensures forall u :: u in store' ==> store'[u] == store[u]
  {
    map u | u in store && !Stale(store[u], now) :: store[u]
  }

  /** Sweeping twice at the same instant is the same as sweeping once. */
  lemma CleanupIdempotent(store: Store, now: int)
    ensures CleanupOldContexts(CleanupOldContexts(store, now), now) == CleanupOldContexts(store, now)
  {
  }

  /** A later sweep removes at least what an earlier one does. */
  lemma CleanupMonotone(store: Store, now: int, later: int)
    requires now <= later
    ensures CleanupOldContexts(store, later).Keys <= CleanupOldContexts(store, now).Keys
  {
  }
}

=== FILE: negotiation.dfy ===
/**
 * The price-negotiation state machine of src/NegotiationState.js: an asking
 * price that comes down by a fixed step towards a floor, offers that accept,
 * counter, or get referred to the owner after repeated low-balling.
 */
module Negotiation {
  import opened Wrappers

  const AskingPrice: int := 550000
  const FloorPrice: int := 500000
  const Step: int := 10000
  /** Low offers (below the floor) needed before the owner is brought in. */
  const ReferAfter: nat := 3

  datatype NegotiationState = NegotiationState(
    currentPrice: int,
    minPrice: int,
    increment: int,
    attempts: nat,
    lastOffer: Option<int>,
    complete: bool,
    agreedPrice: Option<int>)

  datatype OfferKind = Accept | Counter | ReferToOwner | FinalOffer

  /** The object `handleOffer` returns; `complete: true` is present only on accept. */
  datatype Decision = Decision(kind: OfferKind, price: int) {
    predicate Complete() {
      kind == Accept
    }
  }

  /** What every state reachable by `handleOffer` and `reset` satisfies. */
  predicate Valid(s: NegotiationState) {
    && 0 < s.minPrice <= s.currentPrice <= AskingPrice
    && 0 <= s.increment
    && (s.complete ==> s.agreedPrice.Some? && s.agreedPrice.value >= s.minPrice)
  }

  /** The constructor. */
  function Initial(): (s: NegotiationState)
    ensures Valid(s)
    ensures s.currentPrice == AskingPrice && s.minPrice == FloorPrice && s.increment == Step
    ensures s.attempts == 0 && s.lastOffer == None && !s.complete && s.agreedPrice == None
  {
    NegotiationState(AskingPrice, FloorPrice, Step, 0, None, false, None)
  }

  /** `handleOffer(offer)`: the new state and the decision returned to the caller. */
  function HandleOffer(s: NegotiationState, offer: int): (r: (NegotiationState, Decision))
    // every branch records the offer
    ensures r.0.lastOffer == Some(offer)
    // the floor and the step never move
    ensures r.0.minPrice == s.minPrice && r.0.increment == s.increment
    // accept: at or above the current asking price
    ensures r.1.Complete() <==> offer >= s.currentPrice
    ensures offer >= s.currentPrice ==>
              r.1 == Decision(Accept, offer) && r.0.complete && r.0.agreedPrice == Some(offer)
              && r.0.currentPrice == s.currentPrice && r.0.attempts == s.attempts
    // low offer: one more attempt, price unchanged
    ensures offer < s.minPrice && offer < s.currentPrice ==>
              && r.0.attempts == s.attempts + 1
              && r.0.currentPrice == s.currentPrice
              && r.0.complete == s.complete && r.0.agreedPrice == s.agreedPrice
              && (s.attempts + 1 >= ReferAfter ==> r.1 == Decision(ReferToOwner, s.currentPrice))
              && (s.attempts + 1 < ReferAfter ==> r.1 == Decision(Counter, s.currentPrice - s.increment))
    // offer between floor and asking price: come down one step if the floor allows
    ensures s.minPrice <= offer < s.currentPrice ==>
              && r.0.attempts == s.attempts
              && r.0.complete == s.complete && r.0.agreedPrice == s.agreedPrice
              && (s.currentPrice - s.increment >= s.minPrice ==>
                    r.0.currentPrice == s.currentPrice - s.increment
                    && r.1 == Decision(Counter, r.0.currentPrice))
              && (s.currentPrice - s.increment < s.minPrice ==>
                    r.0 == s.(lastOffer := Some(offer))
                    && r.1 == Decision(FinalOffer, s.minPrice))
  {
    var s1 := s.(lastOffer := Some(offer));
    if offer >= s1.currentPrice then
      (s1.(complete := true, agreedPrice := Some(offer)), Decision(Accept, offer))
    else if offer < s1.minPrice then
      var s2 := s1.(attempts := s1.attempts + 1);
      if s2.attempts >= ReferAfter then (s2, Decision(ReferToOwner, s2.currentPrice))
      else (s2, Decision(Counter, s2.currentPrice - s2.increment))
    else if s1.currentPrice - s1.increment >= s1.minPrice then
      var s2 := s1.(currentPrice := s1.currentPrice - s1.increment);
      (s2, Decision(Counter, s2.currentPrice))
    else
      (s1, Decision(FinalOffer, s1.minPrice))
  }

  /** `reset()`: back to the opening position; floor and step are kept. */
  function Reset(s: NegotiationState): (r: NegotiationState)
    ensures r.currentPrice == AskingPrice && r.attempts == 0
    ensures r.lastOffer == None && r.agreedPrice == None && !r.complete
    ensures r.minPrice == s.minPrice && r.increment == s.increment
    ensures 0 < s.minPrice <= AskingPrice && 0 <= s.increment ==> Valid(r)
  {
    s.(currentPrice := AskingPrice, attempts := 0, lastOffer := None,
       complete := false, agreedPrice := None)
  }

  /** One `handleOffer` keeps the invariant, never raises the price and never un-completes. */
  lemma HandleOfferPreservesValid(s: NegotiationState, offer: int)
    requires Valid(s)
    ensures Valid(HandleOffer(s, offer).0)
    ensures HandleOffer(s, offer).0.currentPrice <= s.currentPrice
    ensures s.complete ==> HandleOffer(s, offer).0.complete
    ensures HandleOffer(s, offer).0.attempts >= s.attempts
  {
  }

  /** The state after feeding `offers` to `handleOffer` one after another. */
  function Run(s: NegotiationState, offers: seq<int>): NegotiationState
    decreases |offers|
  {
    if offers == [] then s else Run(HandleOffer(s, offers[0]).0, offers[1..])
  }

  /**
   * Across any sequence of offers the invariant holds, the asking price
   * never goes up, completion is sticky and the low-offer count never drops.
   */
  lemma {:induction false} RunPreservesValid(s: NegotiationState, offers: seq<int>)
    requires Valid(s)
    ensures Valid(Run(s, offers))
    ensures Run(s, offers).currentPrice <= s.currentPrice
    ensures s.complete ==> Run(s, offers).complete
    ensures Run(s, offers).attempts >= s.attempts
    ensures Run(s, offers).minPrice == s.minPrice && Run(s, offers).increment == s.increment
    decreases |offers|
  {
    if offers != [] {
      HandleOfferPreservesValid(s, offers[0]);
      RunPreservesValid(HandleOffer(s, offers[0]).0, offers[1..]);
    }
  }

  /** Completion happens only through an accepting offer. */
  lemma {:induction false} CompletionNeedsAccept(s: NegotiationState, offers: seq<int>)
    requires !s.complete
    requires Run(s, offers).complete
    ensures exists k :: 0 <= k < |offers| && offers[k] >= Run(s, offers[..k]).currentPrice
    decreases |offers|
  {
    if offers == [] {
    } else {
      var s1 := HandleOffer(s, offers[0]).0;
      assert offers[..0] == [];
      if offers[0] >= s.currentPrice {
        assert offers[0] >= Run(s, offers[..0]).currentPrice;
      } else {
        assert !s1.complete;
        CompletionNeedsAccept(s1, offers[1..]);
        var k :| 0 <= k < |offers[1..]| && offers[1..][k] >= Run(s1, offers[1..][..k]).currentPrice;
        assert offers[..k + 1] == [offers[0]] + offers[1..][..k];
        assert Run(s, offers[..k + 1]) == Run(s1, offers[1..][..k]);
        assert offers[k + 1] >= Run(s, offers[..k + 1]).currentPrice;
      }
    }
  }

  /** The states `handleOffer` can reach from the constructor: a price on the 10000 grid. */
  predicate OnGrid(s: NegotiationState) {
    && Valid(s)
    && s.minPrice == FloorPrice && s.increment == Step
    && (AskingPrice - s.currentPrice) % Step == 0
  }

  /**
   * With the constructor's constants the price stays on the 10,000 grid, so
   * its last step reaches the floor exactly and the `final_offer` branch is
   * never taken.
   */
  lemma {:induction false} NoFinalOfferOnGrid(s: NegotiationState, offers: seq<int>)
    requires OnGrid(s)
    ensures OnGrid(Run(s, offers))
    ensures offers != [] ==> HandleOffer(s, offers[0]).1.kind != FinalOffer
    decreases |offers|
  {
    if offers != [] {
      var offer := offers[0];
      HandleOfferPreservesValid(s, offer);
      if s.minPrice <= offer < s.currentPrice {
        assert s.currentPrice >= FloorPrice + Step;
      }
      NoFinalOfferOnGrid(HandleOffer(s, offer).0, offers[1..]);
    }
  }

  /**
   * Five offers between floor and asking price bring a fresh negotiation
   * down to the floor, after which no offer can be "in between" any more.
   */
  lemma FiveStepsReachFloor()
    ensures Run(Initial(), [540000, 530000, 520000, 510000, 500000]).currentPrice == FloorPrice
  {
    var s0 := Initial();
    var s1 := HandleOffer(s0, 540000).0;
    var s2 := HandleOffer(s1, 530000).0;
    var s3 := HandleOffer(s2, 520000).0;
    var s4 := HandleOffer(s3, 510000).0;
    var s5 := HandleOffer(s4, 500000).0;
    assert s5.currentPrice == FloorPrice;
    assert Run(s5, []) == s5;
  }

  /** The third low offer in a row is referred to the owner at the current price. */
  lemma ThirdLowOfferIsReferred(s: NegotiationState, a: int, b: int, c: int)
    requires Valid(s) && s.attempts == 0
    requires a < s.minPrice && b < s.minPrice && c < s.minPrice
    ensures var s1 := HandleOffer(s, a).0;
            var s2 := HandleOffer(s1, b).0;
            && HandleOffer(s, a).1.kind == Counter
            && HandleOffer(s1, b).1.kind == Counter
            && HandleOffer(s2, c).1 == Decision(ReferToOwner, s.currentPrice)
            && HandleOffer(s2, c).0.attempts == 3
  {
  }

  /**
   * A low offer once the price sits on the floor is countered BELOW the
   * floor: the low-offer branch subtracts the step without the floor check
   * the in-between branch makes.
   */
  lemma LowOfferCounterUndercutsFloor(s: NegotiationState, offer: int)
    requires Valid(s) && s.currentPrice == s.minPrice && s.increment > 0
    requires offer < s.minPrice && s.attempts + 1 < ReferAfter
    ensures HandleOffer(s, offer).1.kind == Counter
    ensures HandleOffer(s, offer).1.price < s.minPrice
  {
  }
}

=== FILE: text.dfy ===
/**
 * The pieces of JavaScript string and regular-expression behaviour the bot
 * relies on: the `\d`, `\w` and `\s` character classes, ASCII case folding,
 * `includes`, `trim`, the `/\d+/g` digit-run scan and `parseInt` on a string
 * of decimal digits.
 */
module Text {

  /** `\d`: ASCII decimal digits only. */
  predicate IsDigit(c: char) {
    '0' <= c <= '9'
  }

  /** `\w`: ASCII letters, digits and underscore. */
  predicate IsWordChar(c: char) {
    'a' <= c <= 'z' || 'A' <= c <= 'Z' || IsDigit(c) || c == '_'
  }

  /** `\s`, and what `String.prototype.trim` strips: WhiteSpace and LineTerminator. */
  predicate IsSpace(c: char) {
    || c == '\t' || c == '\n' || c == '\U{000B}' || c == '\U{000C}' || c == '\r'
    || c == ' ' || c == '\U{00A0}' || c == '\U{1680}'
    || ('\U{2000}' <= c <= '\U{200A}')
    || c == '\U{2028}' || c == '\U{2029}' || c == '\U{202F}' || c == '\U{205F}'
    || c == '\U{3000}' || c == '\U{FEFF}'
  }

  /** The characters `.` does not match. */
  predicate IsLineTerminator(c: char) {
    c == '\n' || c == '\r' || c == '\U{2028}' || c == '\U{2029}'
  }

  /** Case folding as the `i` flag does it without `u`: only ASCII letters fold. */
  function Lower(c: char): (d: char)
    // no upper-case ASCII letter is left, and nothing else changes
    ensures !('A' <= d <= 'Z')
    ensures !('A' <= c <= 'Z') ==> d == c
    // the `\d`, `\w` and `\s` classes survive folding
    ensures IsDigit(d) <==> IsDigit(c)
    ensures IsWordChar(d) <==> IsWordChar(c)
    ensures IsSpace(d) <==> IsSpace(c)
  {
    if 'A' <= c <= 'Z' then (c as int + 32) as char else c
  }

  /** `s.toLowerCase()` restricted to ASCII letters. */
  function LowerAll(s: string): (r: string)
    ensures |r| == |s|
    // only upper-case ASCII letters change, and none is left
    ensures forall i :: 0 <= i < |s| && !('A' <= s[i] <= 'Z') ==> r[i] == s[i]
    ensures forall i :: 0 <= i < |r| ==> !('A' <= r[i] <= 'Z')
    // every character keeps its `\d`, `\w` and `\s` class
    ensures forall i :: 0 <= i < |s| ==>
              (IsDigit(r[i]) <==> IsDigit(s[i])) && (IsWordChar(r[i]) <==> IsWordChar(s[i]))
              && (IsSpace(r[i]) <==> IsSpace(s[i]))
  {
    seq(|s|, i requires 0 <= i < |s| => Lower(s[i]))
  }

  /** `w` occurs in `s` starting at index `i`. */
  predicate At(s: string, i: int, w: string) {
    0 <= i && i + |w| <= |s| && s[i..i + |w|] == w
  }

  /** `s.includes(w)`. */
  predicate Contains(s: string, w: string) {
    exists i | 0 <= i <= |s| :: At(s, i, w)
  }

  /** `w` (written in lower case) occurs at `i`, ignoring ASCII case. */
  predicate AtIgnoreCase(s: string, i: int, w: string) {
    At(LowerAll(s), i, w)
  }

  /**
   * `ws.some(w => s.toLowerCase().includes(w))` for lower-case words `ws`:
   * one of them occurs somewhere in `s`, ignoring case.
   */
  predicate Mentions(s: string, ws: seq<string>) {
    exists i, w | 0 <= i <= |s| && w in ws :: AtIgnoreCase(s, i, w)
  }

  /** Where the text starts once the `\s` characters from `i` on are skipped. */
  function SkipSpaces(s: string, i: nat): (a: nat)
    requires i <= |s|
    ensures i <= a <= |s|
    ensures forall k | i <= k < a :: IsSpace(s[k])
    ensures a < |s| ==> !IsSpace(s[a])
    decreases |s| - i
  {
    if i < |s| && IsSpace(s[i]) then SkipSpaces(s, i + 1) else i
  }

  /** Where the text ends once the `\s` characters before `j`, down to `a`, are dropped. */
  function DropSpaces(s: string, a: nat, j: nat): (b: nat)
    requires a <= j <= |s|
    ensures a <= b <= j
    ensures forall k | b <= k < j :: IsSpace(s[k])
    ensures b > a ==> !IsSpace(s[b - 1])
    decreases j - a
  {
    if j > a && IsSpace(s[j - 1]) then DropSpaces(s, a, j - 1) else j
  }

  /** `s.trim()`: the slice left after stripping `\s` from both ends. */
  function Trim(s: string): (r: string)
    ensures exists a, b :: 0 <= a <= b <= |s| && r == s[a..b]
                           && (forall i :: 0 <= i < a ==> IsSpace(s[i]))
                           && (forall i :: b <= i < |s| ==> IsSpace(s[i]))
    ensures r != [] ==> !IsSpace(r[0]) && !IsSpace(r[|r| - 1])
  {
    var a := SkipSpaces(s, 0);
    var b := DropSpaces(s, a, |s|);
    s[a..b]
  }

  /** The digits of `s` in order, every other character dropped. */
  function Digits(s: string): (r: string)
    ensures |r| <= |s|
    ensures forall i :: 0 <= i < |r| ==> IsDigit(r[i])
  {
    if s == [] then []
    else if IsDigit(s[0]) then [s[0]] + Digits(s[1..])
    else Digits(s[1..])
  }

  /** Length of the longest all-digit prefix of `s`. */
  function DigitPrefix(s: string): (n: nat)
    ensures n <= |s|
    ensures forall i :: 0 <= i < n ==> IsDigit(s[i])
    ensures n < |s| ==> !IsDigit(s[n])
  {
    if s != [] && IsDigit(s[0]) then 1 + DigitPrefix(s[1..]) else 0
  }

  /** `s.match(/\d+/g)` as a list: every maximal run of digits, left to right. */
  function DigitRuns(s: string): (runs: seq<string>)
    ensures forall k :: 0 <= k < |runs| ==> runs[k] != []
    ensures forall k, i :: 0 <= k < |runs| && 0 <= i < |runs[k]| ==> IsDigit(runs[k][i])
    decreases |s|
  {
    if s == [] then []
    else if !IsDigit(s[0]) then DigitRuns(s[1..])
    else
      var n := DigitPrefix(s);
      [s[..n]] + DigitRuns(s[n..])
  }

  /** `runs.join('')`. */
  function Concat(runs: seq<string>): string {
    if runs == [] then [] else runs[0] + Concat(runs[1..])
  }

  function DigitValue(c: char): nat
    requires IsDigit(c)
  {
    c as int - '0' as int
  }

  /** `parseInt` of a string of decimal digits, without precision loss. */
  function DecimalValue(ds: string): nat
    requires forall i :: 0 <= i < |ds| ==> IsDigit(ds[i])
  {
    if ds == [] then 0
    else 10 * DecimalValue(ds[..|ds| - 1]) + DigitValue(ds[|ds| - 1])
  }

  /** Joining the `/\d+/g` runs keeps exactly the digits of the text, in order. */
  lemma {:induction false} JoinedRunsAreDigits(s: string)
    ensures Concat(DigitRuns(s)) == Digits(s)
    decreases |s|
  {
    if s == [] {
    } else if !IsDigit(s[0]) {
      JoinedRunsAreDigits(s[1..]);
    } else {
      var n := DigitPrefix(s);
      JoinedRunsAreDigits(s[n..]);
      PrefixDigits(s, n);
      assert DigitRuns(s) == [s[..n]] + DigitRuns(s[n..]);
      assert Concat(DigitRuns(s)) == s[..n] + Concat(DigitRuns(s[n..]));
    }
  }

  /** Splitting `s` after an all-digit prefix splits `Digits` the same way. */
  lemma {:induction false} PrefixDigits(s: string, n: nat)
    requires n <= |s|
    requires forall i :: 0 <= i < n ==> IsDigit(s[i])
    ensures Digits(s) == s[..n] + Digits(s[n..])
    decreases n
  {
    if n > 0 {
      PrefixDigits(s[1..], n - 1);
      assert s[1..][..n - 1] == s[1..n];
      assert s[1..][n - 1..] == s[n..];
      assert s[..n] == [s[0]] + s[1..n];
    }
  }

  /** A digit string parses to zero exactly when every digit is `'0'`. */
  lemma {:induction false} DecimalValueZero(ds: string)
    requires forall i :: 0 <= i < |ds| ==> IsDigit(ds[i])
    ensures DecimalValue(ds) == 0 <==> forall i :: 0 <= i < |ds| ==> ds[i] == '0'
    decreases |ds|
  {
    if ds != [] {
      var init := ds[..|ds| - 1];
      DecimalValueZero(init);
      assert forall i :: 0 <= i < |init| ==> init[i] == ds[i];
    }
  }

  /** Every character is `'0'`. */
  predicate AllZeros(s: string) {
    forall i | 0 <= i < |s| :: s[i] == '0'
  }

  /** Every digit of the text is `'0'` (vacuously so without digits). */
  predicate NoNonZeroDigit(s: string) {
    forall i | 0 <= i < |s| :: IsDigit(s[i]) ==> s[i] == '0'
  }

  /** `Digits` is empty exactly when the text has no digit, and all zeros exactly when every digit is `'0'`. */
  lemma {:induction false} DigitsContent(s: string)
    ensures Digits(s) == [] <==> forall i | 0 <= i < |s| :: !IsDigit(s[i])
    ensures AllZeros(Digits(s)) <==> NoNonZeroDigit(s)
    decreases |s|
  {
    if s != [] {
      var t := s[1..];
      DigitsContent(t);
      assert forall i | 1 <= i < |s| :: s[i] == t[i - 1];
      assert NoNonZeroDigit(s) <==> (IsDigit(s[0]) ==> s[0] == '0') && NoNonZeroDigit(t);
      if IsDigit(s[0]) {
        var d := Digits(t);
        assert Digits(s) == [s[0]] + d;
        var e := [s[0]] + d;
        if AllZeros(e) {
          assert e[0] == s[0];
          forall i | 0 <= i < |d| ensures d[i] == '0' { assert d[i] == e[i + 1]; }
        }
        if s[0] == '0' && AllZeros(d) {
          forall i | 0 <= i < |e| ensures e[i] == '0' { if i > 0 { assert e[i] == d[i - 1]; } }
        }
      }
    }
  }
}

=== FILE: wrappers.dfy ===
/** JavaScript `null`-or-value fields, written the Dafny way. */
module Wrappers {

  datatype Option<+T> = None | Some(value: T)

  /** JS truthiness of a nullable string: `null` and `""` are falsy. */
  predicate TruthyString(s: Option<string>) {
    s.Some? && s.value != []
  }

  /** JS truthiness of a nullable number: `null` and `0` are falsy. */
  predicate TruthyInt(n: Option<int>) {
    n.Some? && n.value != 0
  }

  /** `a || b` on nullable numbers: `a` when it is truthy, `b` otherwise. */
  function OrInt(a: Option<int>, b: Option<int>): (r: Option<int>)
    // the result is one of the two, and truthy exactly when either is
    ensures r == a || r == b
    ensures TruthyInt(r) <==> TruthyInt(a) || TruthyInt(b)
  {
    if TruthyInt(a) then a else b
  }
}
